=== FILE: README.md ===
# ckanext-composite template helpers, modelled in Dafny

The CKAN extension `ckanext-composite` lets a dataset schema declare a
*composite* field: a field made of named subfields, and in the repeating
variant a list of such rows. A composite value comes in three shapes:

- the flat form mapping a browser submits, with delimited keys such as
  `contact-name` or `contact-2-email`;
- the structured value stored with the dataset;
- that value's JSON text.

The template helpers in `ckanext/composite/helpers.py` turn whichever of these
is present into what a form template renders. This project models that logic
as pure Dafny functions over an explicit model of Python values, and proves
what the helpers promise.

Modules:

- `PyValues` (`values.dfy`):
  - Python values: `None`, bool, int, str, list, and dict with str keys.
  - Python truthiness, and the raised exceptions as a `Result`.
  - `dict.get`.
  - The two `_json2*_or_empty` helpers as `LoadsOr`: decode with a given
    JSON decoder, and fall back to a default on any failure.
- `Ordering` (`ordering.dfy`):
  - `sorted()` of a set of `str` keys, as lexicographic code-point order.
  - `sorted()` of the grouped row indices.
- `Text` (`text.dfy`): `str.split(sep, maxsplit)` and `str.join`, with the
  leftmost-occurrence search they rely on.
- `Numbers` (`numbers.dfy`): `int()` of a `str`, and the decimal rendering
  that is its inverse.
- `Keys` (`keys.dfy`):
  - The key test `re.match(field_name + sep + ".+", key)`.
  - The sorted list of matching keys.
  - Where the first separator of a matching key falls.
- `Scalar` (`scalar.dfy`): `composite_get_value_dict` and its inner
  `build_value_dict`.
- `TemplateHelpers` (`helpers.dfy`): the field-descriptor helpers
  (`composite_get_label_dict`, `composite_get_choices_dict`,
  `composite_get_name_list`), and `composite_is_list`, `composite_join_list`
  and `composite_get_as_dict`.
- `Repeating` (`repeating.dfy`): `composite_repeating_get_value_dict_list`
  with its inner `build_value_dict_list`, `dict_is_empty` and
  `remove_empty_dicts`.

Three inputs are parameters:

- The separator `sep`. In the extension it is read from configuration.
- The JSON decoder `parse: string -> Option<Value>`. It is otherwise
  unconstrained. `None` stands for any exception `json.loads` raises on
  `str` input.
- The `str()` rendering `show` used by `composite_join_list`.

Calling `json.loads` on a value that is not a `str` raises `TypeError`, and
the helpers catch it. So the model sends every non-`str` value to the
default without consulting `parse`.

Behaviours of the code worth knowing, all of which the model keeps:

- Blank rows: the code loops over `range(1, max(field_blanks + 1, 2))`, which
  gives `max(field_blanks, 1)` blank rows.
- A non-integer index: a matching key with a truthy value, three segments and
  a non-integer index segment makes `int()` raise `ValueError`. Nothing
  catches it, so `ResolveRepeating` returns `Raised(ValueError)`.
- A stored dict in the repeating resolver: a stored value that is already a
  `dict` goes to `json.loads`, which raises, and the fallback is `[]`. Only
  JSON *text* that decodes to an object becomes a one-row list.
- Decoded values that are not objects: the scalar resolver returns whatever
  the stored JSON text decodes to, even when that is not an object (a list or
  a number, say). The repeating resolver likewise returns a truthy decoded
  non-list as it is when `include_empty` is true. When it is false,
  `remove_empty_dicts` raises on such a value: `AttributeError` for a `str`,
  `TypeError` for a number or `true`.

The repeating resolver runs in three phases, which the model names:
collecting (the form rows, else the stored fallback, lines 183-198), padding
(a falsy collected value becomes the blank rows, lines 200-208) and
filtering (`remove_empty_dicts` when `include_empty` is false, lines
210-211).

## Model

| member | source | states |
|---|---|---|
| PyValues.LoadsOr | ckanext/composite/helpers.py:12-26 | The decoded value when the input is a `str` the decoder accepts. The default for anything else, including a non-`str` input, which `json.loads` rejects. It never raises. |
| Ordering.SortedStrings | ckanext/composite/helpers.py:111 | `sorted()` of a key set: strictly increasing in string order, of the same size as the set, and holding exactly the set's members. |
| Ordering.SortDistinct | ckanext/composite/helpers.py:179 | The row indices in ascending numeric order, each once, with exactly the members of the input. |
| Text.Join | ckanext/composite/helpers.py:42 | `sep.join(parts)`. Its partners are `Text.JoinSplit` and `Text.SplitJoin`. |
| Text.JoinLength | ckanext/composite/helpers.py:42 | The joined text is as long as all parts together plus one `sep` between each two neighbours. |
| Text.FindFirst | ckanext/composite/helpers.py:116 | The position where `sep` first occurs. `None` exactly when `sep` does not occur. No earlier occurrence exists. |
| Text.FindFromSpec | ckanext/composite/helpers.py:116 | The search from a start position finds an occurrence at or after it with none in between, or reports none exactly when no occurrence follows the start. |
| Text.Split | ckanext/composite/helpers.py:116-119 | `str.split(sep, maxsplit)` gives at least one piece, and at most `maxsplit + 1` pieces when a limit is given. |
| Text.JoinSplit | ckanext/composite/helpers.py:116-119 | Joining the pieces of any split with `sep` gives back the input, whatever the limit. |
| Text.SplitPieces | ckanext/composite/helpers.py:167-169 | Every piece except the last holds no `sep`. The last one holds no `sep` too, unless the split limit was reached. |
| Text.SplitCutsCleanly | ckanext/composite/helpers.py:167-169 | Every piece except the last splits off cleanly: no occurrence of `sep` starts inside it, even one overlapping the cut. So the cut is the leftmost one when `sep` overlaps itself (`"aaa".split("aa")` gives `""` and `"a"`). |
| Text.SplitJoin | ckanext/composite/helpers.py:167 | Split inverts join: splitting `sep.join(parts)` without a limit gives `parts` back, when no part contains `sep` or lets one straddle the joint. |
| Numbers.StripLeft | ckanext/composite/helpers.py:170 | The ASCII whitespace `int()` skips before its argument (space, `\t\n\v\f\r`): the result is a suffix of the input, only such whitespace was dropped, and it does not start with it. |
| Numbers.StripRight | ckanext/composite/helpers.py:170 | The ASCII whitespace `int()` skips after its argument: the result is a prefix of the input, only such whitespace was dropped, and it does not end with it. |
| Numbers.ParseInt | ckanext/composite/helpers.py:170 | `int(segment)`: a plain run of digits gives its decimal value, and a segment without any digit raises `ValueError` (modelled as `None`). |
| Numbers.ParseIntTrimmed | ckanext/composite/helpers.py:170 | Whitespace around the segment is ignored: padding a text that neither starts nor ends with whitespace by ASCII whitespace on either side leaves `int()`'s result unchanged, error included. |
| Numbers.ParseIntSigned | ckanext/composite/helpers.py:170 | A sign before a run of digits is accepted: `int("-" + ds)` is minus the digits' value and `int("+" + ds)` is their value. |
| Numbers.ParseIntRejectsForeign | ckanext/composite/helpers.py:170 | A segment holding any character that is not ASCII whitespace, a digit or a sign, wherever it stands, makes `int()` raise `ValueError`. |
| Numbers.ParseIntSpacing | ckanext/composite/helpers.py:170 | Instances of `ParseIntTrimmed` and `ParseIntRejectsForeign`: `int(" 5\t") == 5`, while `int()` rejects the separators U+001C and U+001F before or after the digits. |
| Numbers.ParseIntOfIntToString | ckanext/composite/helpers.py:170 | `int()` inverts decimal rendering: `int(str(n)) == n` for every integer, negative ones included. |
| Numbers.ParseIntLeadingZero | ckanext/composite/helpers.py:170 | `int("0" + ds) == int(ds)` for a digit string. So the index segments `01` and `1` name the same row. |
| Keys.Matches | ckanext/composite/helpers.py:110 | `re.match(field_name + sep + ".+", key)` succeeds: the key starts with `field_name + sep`, followed by at least one character that is not a newline. |
| Keys.MatchingKeys | ckanext/composite/helpers.py:110-111 | Sorted without repeats, and holding exactly the keys of `data` that start with `field_name + sep` and have at least one more character that is not a newline. |
| Keys.SubfieldStart | ckanext/composite/helpers.py:116 | The first `sep` of every matching key lies within `field_name + sep`, so the subfield starts at the same offset in every matching key. That offset is the end of `field_name + sep` unless an occurrence of `sep` starts inside `field_name`, including one that straddles into the appended `sep`. |
| Keys.SplitOnceOfMatching | ckanext/composite/helpers.py:116-119 | A matching key always splits into exactly two pieces, so the `len < 2` skip cannot happen. The subfield is the rest of the key after its first `sep`, which includes the tail of `field_name + sep` after the first occurrence of `sep` in it, when that occurrence starts inside `field_name` (possibly straddling into the appended `sep`). |
| Keys.AfterFirstSepInjective | ckanext/composite/helpers.py:119-120 | Two matching keys with the same subfield are the same key, so no assembled entry is overwritten. |
| Keys.FieldNameDoesNotMatch | ckanext/composite/helpers.py:110 | The stored slot `data[field_name]` is never one of the submitted subfield keys. |
| Scalar.FormValue | ckanext/composite/helpers.py:108-121 | `build_value_dict()`: only truthy form values are copied, so no entry is empty. `Scalar.FormValueContents` pins its contents. |
| Scalar.FormValueContents | ckanext/composite/helpers.py:108-121 | `build_value_dict` maps the subfield of every matching key with a truthy value to that value, and holds nothing else. |
| Scalar.ResolveScalar | ckanext/composite/helpers.py:123-137 | When some key contributes, the result is the assembled dict. Otherwise, by the stored slot: absent or falsy gives `{}`; a dict is returned as it is; a `str` the decoder accepts gives the decoded value; anything else gives `{}`. It never raises. |
| Scalar.SubmittedValueWins | ckanext/composite/helpers.py:127-128 | When the submitted data yields anything, replacing the stored slot with any value leaves the result unchanged. |
| Scalar.ResolveScalarRoundTrip | ckanext/composite/helpers.py:123-137 | Given a decoder that inverts a non-empty dump, storing the resolved value as JSON and resolving again gives it back. |
| TemplateHelpers.IndexByNameKeys | ckanext/composite/helpers.py:67-70 | The keys of the built dict are exactly the descriptors' `field_name`s, with `''` for a missing name. |
| TemplateHelpers.IndexByNameValues | ckanext/composite/helpers.py:67-70 | The value under a name comes from the last descriptor with that name. |
| TemplateHelpers.LabelDict | ckanext/composite/helpers.py:58-71 | The keys are the names. Each name maps to the `label` of the last descriptor carrying it, or to the name itself when that descriptor has no label. |
| TemplateHelpers.ChoicesDict | ckanext/composite/helpers.py:73-85 | The keys are the names. Each name maps to the `choices` of the last descriptor carrying it, or to `[]` when it has none. |
| TemplateHelpers.NameList | ckanext/composite/helpers.py:87-98 | The result holds exactly the non-empty `field_name`s that occur, and is no longer than the descriptor list. |
| TemplateHelpers.NameListAppend | ckanext/composite/helpers.py:93-98 | Names are collected in order: the list for `xs + ys` is the list for `xs` followed by the list for `ys`. |
| TemplateHelpers.IsList | ckanext/composite/helpers.py:28-33 | `isinstance(value, list)`. |
| TemplateHelpers.JoinList | ckanext/composite/helpers.py:35-43 | A non-empty list of strings gives exactly `sep.join` of its strings, and a singleton gives its only item. A non-empty list with a non-`str` item raises `TypeError`. Anything else gives `str(value)`. |
| TemplateHelpers.JoinListSplit | ckanext/composite/helpers.py:35-43 | For a non-empty list of strings the helper returns their join. Splitting that text at `sep` gives the strings back, when no string contains `sep` or lets one straddle the joint. |
| TemplateHelpers.GetAsDict | ckanext/composite/helpers.py:45-56 | A dict is returned as it is. A `str` the decoder accepts gives the decoded value. Anything else gives `{}`. |
| TemplateHelpers.GetAsDictRoundTrip | ckanext/composite/helpers.py:45-56 | For a decoder that inverts `dump`, the JSON text of a dict gives the dict back, and applying the helper again changes nothing. |
| Repeating.FormGroups | ckanext/composite/helpers.py:158-177 | `build_value_dict_list()` up to the final sort: the rows grouped by index. The only exception it raises is `ValueError`. |
| Repeating.FormGroupsRaises | ckanext/composite/helpers.py:165-171 | Grouping raises exactly when some matching key has a truthy value, three segments and a non-integer index segment, and the error is `ValueError`. Keys with falsy values or fewer than three segments never raise. |
| Repeating.FormGroupsKeys | ckanext/composite/helpers.py:165-174 | A row exists for exactly the indices some contributing key writes to. It holds exactly the subfields such keys write. |
| Repeating.FormGroupsLastKeyWins | ckanext/composite/helpers.py:165-174 | When several keys write the same subfield of the same row (such as `r-01-x` and `r-1-x`), the row holds the value of the greatest key in string order. |
| Repeating.FormGroupsRowsNotBlank | ckanext/composite/helpers.py:166-174 | Every grouped row holds a truthy form value, so none of them is blank. |
| Repeating.RowsInIndexOrder | ckanext/composite/helpers.py:179 | The rows come in ascending numeric order of their indices, one per index, and each is that index's dict. |
| Repeating.StoredRows | ckanext/composite/helpers.py:189-198 | The stored fallback. Absent or falsy gives `[]`. A truthy list is used as it is. Another truthy non-`str` gives `[]`, so a stored dict gives `[]`. JSON text the decoder rejects gives `[]`. Text decoding to an object gives a one-row list. Other decoded values pass through. |
| Repeating.BlankRow | ckanext/composite/helpers.py:205-207 | A blank row maps every subfield's `field_name` to `''`. It raises `KeyError` exactly when some descriptor has no `field_name`. |
| Repeating.BlankRows | ckanext/composite/helpers.py:200-208 | Exactly `max(field_blanks, 1)` rows, each a blank row, with `KeyError` exactly when a descriptor has no name. |
| Repeating.IsBlankRow | ckanext/composite/helpers.py:147-149 | `dict_is_empty`: every value of the row is `''`, so `{}` is blank. |
| Repeating.KeptMembers | ckanext/composite/helpers.py:147-156 | The rows that survive filtering are exactly the input's dicts with a value other than `''`. `{}` counts as blank. |
| Repeating.KeptAppend | ckanext/composite/helpers.py:151-156 | Filtering works item by item in order: filtering `xs + ys` is filtering `xs` followed by filtering `ys`. |
| Repeating.KeptIdempotent | ckanext/composite/helpers.py:151-156 | Filtering a filtered list changes nothing. |
| Repeating.FilterRows | ckanext/composite/helpers.py:151-156 | `remove_empty_dicts` succeeds exactly on a list of dicts, and raises `AttributeError` otherwise. |
| Repeating.FilterRowsKeeps | ckanext/composite/helpers.py:151-156 | On success, the result is the order-preserving selection of the non-blank rows. |
| Repeating.RemoveEmpty | ckanext/composite/helpers.py:147-156 | The filter succeeds on a list of dicts, `''` and `{}`. A list result is the in-order selection of the non-blank rows. Every item kept is a non-blank dict. Errors are never `ValueError` or `KeyError`: `AttributeError` for a list, `str` or dict (an item without `.values()`), `TypeError` for anything else (not iterable). |
| Repeating.RemoveEmptyIdempotent | ckanext/composite/helpers.py:210-211 | Filtering the filtered result again changes nothing. |
| Repeating.Collected | ckanext/composite/helpers.py:183-198 | Collecting: it raises exactly when grouping raises, and then with `ValueError`. Its value is the grouped rows when the form yields any (`Repeating.CollectedFromForm`), and the stored fallback otherwise (`Repeating.StoredFallbackUsed`). |
| Repeating.Padded | ckanext/composite/helpers.py:200-208 | A truthy value is kept. Any falsy value (`None`, `[]`, `0`, `''`) becomes the list of blank rows, or that step's `KeyError`. A success is always truthy, and the only error is `KeyError`. |
| Repeating.Finish | ckanext/composite/helpers.py:200-213 | Padding, then optional filtering. An earlier error, or padding's error, passes through. With `include_empty` the result is the padded value. Without it, the result is `remove_empty_dicts` of the padded value: a padded list of dicts becomes exactly its non-blank rows in order, and any success is a list of non-blank dicts. |
| Repeating.ResolveRepeating | ckanext/composite/helpers.py:139-213 | With `include_empty` a success is truthy, so the template always has a row to render. Without it a success is a list of non-blank dict rows. Its value in every case follows from `Repeating.ResolveRepeatingRaises`, `Repeating.SubmittedRowsResult` and `Repeating.StoredFallbackUsed` together with the contracts of `Repeating.StoredRows` and `Repeating.Finish`. |
| Repeating.ResolveRepeatingRaises | ckanext/composite/helpers.py:165-171 | The resolver raises `ValueError` exactly when some matching key with a truthy value and three pieces has an index that `int()` rejects. Padding and filtering never raise it. |
| Repeating.FormGroupsFrame | ckanext/composite/helpers.py:158-179 | Grouping reads `data` only at the matching keys. |
| Repeating.SubmittedRowsWin | ckanext/composite/helpers.py:185-188 | When some key contributes a row, replacing the stored slot with any value leaves the result unchanged. |
| Repeating.SubmittedRowsResult | ckanext/composite/helpers.py:176-213 | When some key contributes a row and grouping raises nothing, the result is exactly the grouped rows in ascending index order, with or without `include_empty`: filtering removes none of them. |
| Repeating.CollectedFromForm | ckanext/composite/helpers.py:176-188 | When some key contributes a row and grouping raises nothing, the collected value is the non-empty list of grouped rows in index order. |
| Repeating.StoredFallbackUsed | ckanext/composite/helpers.py:187-213 | With no contributing key and no bad index, collecting gives the stored fallback, and the result is padding and filtering applied to it. |
| Repeating.BlankRowsForEmptyForm | ckanext/composite/helpers.py:200-211 | With no contributing key, no bad index and a falsy stored fallback (an absent or falsy slot, or JSON text decoding to a falsy value other than `{}`, which is wrapped into `[{}]`): `include_empty` gives the `max(field_blanks, 1)` blank rows, and without it the result is `[]`. |
| Repeating.StoredObjectWrapped | ckanext/composite/helpers.py:194-198 | With no contributing key and no bad index, stored JSON text that decodes to an object gives the one-row list of that object with `include_empty`. |
| Repeating.StoredDictIgnored | ckanext/composite/helpers.py:192-195 | A stored value that is already a dict gives the same result as no stored value at all. |
| Repeating.StoredListUsed | ckanext/composite/helpers.py:191-211 | With no contributing key and no bad index, a non-empty stored list is returned as it is with `include_empty`. Without it, the result is its non-blank rows when every item is a dict, and `AttributeError` when some item is not. |

## Left out

- `composite_separator` (ckanext/composite/helpers.py:9-10) reads
  configuration. The separator is a parameter instead. It is required to be
  non-empty. With `sep == ""`, `str.split` raises `ValueError`, but only
  when it runs, that is for a matching key with a truthy value
  (ckanext/composite/helpers.py:115-116 and 166-167): then
  `composite_get_value_dict` raises `ValueError` too; without such a key both
  resolvers return their stored-slot result. Requiring `|sep| > 0` leaves
  both cases out.
- `json.loads` is a parameter. The model makes no claim about JSON syntax.
- `logger.warn` calls are logging only, with no effect on results.
- `re.match(field_name + sep + ".+", key)` is modelled as a literal prefix
  test plus one more non-newline character. Regex metacharacters in
  `field_name` or `sep` are not interpreted.
- `composite_get_default_value` is left out: it depends on the wall clock.
- `composite_get_markup` is left out: it renders HTML for display.
- `composite_is_mail` is left out: its result depends on details of the regex
  engine.
- Dict key order is not modelled: dicts are Dafny maps. The order of rows, and
  the order in which keys are visited, are modelled.
- Floats and bytes are not part of the value model.
- `str()` of a value is the parameter `show` of `TemplateHelpers.JoinList`.
- Descriptors carry an optional `str` `field_name`. A non-`str` name is not
  modelled.
- Numbers.ParseInt: does not accept underscores between digits or non-ASCII
  digits and spaces, both of which Python's `int()` accepts. Such index
  segments are treated as bad indices.
- Default arguments are not modelled: `field_blanks=1` and
  `include_empty=True` (ckanext/composite/helpers.py:139) and `sep=', '`
  (ckanext/composite/helpers.py:35) are explicit parameters of the model.
- Numbers.ParseInt: does not model the digit limit of CPython 3.11 and
  later, where `int()` of a text with more than 4300 digits raises
  `ValueError`. Such an index segment gives a row here, not a bad index.

=== FILE: helpers.dfy ===
/** The small template helpers: lookups over the subfield descriptors of a
    composite field, list joining and dict coercion. */
module TemplateHelpers {
  import opened PyValues
  import opened Text

  /** A subfield descriptor (a dict in the schema): its optional
      `field_name`, `label` and `choices` entries. Other entries are not
      read by the helpers. */
  datatype Descriptor = Descriptor(fieldName: Option<string>, fieldLabel: Option<Value>, choices: Option<Value>)

  /** `field.get('field_name', '')`. */
  function NameOf(d: Descriptor): string {
    d.fieldName.ValueOr("")
  }

  /** The dict built by assigning `pick(field)` under each field's name, in
      list order. */
  function IndexByName(fields: seq<Descriptor>, pick: Descriptor -> Value): map<string, Value>
    decreases |fields|
  {
    if fields == [] then map[]
    else
      var d := fields[|fields| - 1];
      IndexByName(fields[..|fields| - 1], pick)[NameOf(d) := pick(d)]
  }

  /** `fields[i]` is the last descriptor with its name. */
  predicate LastWithName(fields: seq<Descriptor>, i: int) {
    0 <= i < |fields| && forall j :: i < j < |fields| ==> NameOf(fields[j]) != NameOf(fields[i])
  }

  /** Its keys are the descriptors' names. */
  lemma {:induction false} IndexByNameKeys(fields: seq<Descriptor>, pick: Descriptor -> Value)
    ensures forall name :: name in IndexByName(fields, pick) <==>
      exists i :: 0 <= i < |fields| && NameOf(fields[i]) == name
    decreases |fields|
  {
    if fields != [] {
      var n := |fields| - 1;
      var prefix := fields[..n];
      IndexByNameKeys(prefix, pick);
      forall name | name in IndexByName(prefix, pick)
        ensures exists i :: 0 <= i < |fields| && NameOf(fields[i]) == name
      {
        var i :| 0 <= i < |prefix| && NameOf(prefix[i]) == name;
        assert fields[i] == prefix[i];
      }
      forall i | 0 <= i < n
        ensures NameOf(fields[i]) in IndexByName(fields, pick)
      {
        assert prefix[i] == fields[i];
      }
    }
  }

  /** Each name holds what `pick` gives for the last descriptor of that
      name. */
  lemma {:induction false} IndexByNameValues(fields: seq<Descriptor>, pick: Descriptor -> Value)
    ensures forall i :: LastWithName(fields, i) ==>
      NameOf(fields[i]) in IndexByName(fields, pick)
      && IndexByName(fields, pick)[NameOf(fields[i])] == pick(fields[i])
    decreases |fields|
  {
    if fields != [] {
      var n := |fields| - 1;
      var prefix := fields[..n];
      IndexByNameValues(prefix, pick);
      forall i | LastWithName(fields, i) && i < n
        ensures LastWithName(prefix, i)
      {
        forall j | i < j < n
          ensures NameOf(prefix[j]) != NameOf(prefix[i])
        {
          assert prefix[j] == fields[j];
          assert LastWithName(fields, i);
        }
      }
    }
  }

  /** The label a descriptor contributes: `field.get('label', name)`. */
  function LabelOf(d: Descriptor): Value {
    d.fieldLabel.ValueOr(StrV(NameOf(d)))
  }

  /** `composite_get_label_dict(field_list)`: every field name (`''` when
      missing) maps to the label of the last descriptor with that name, or
      to the name itself when that descriptor has no label. */
  function LabelDict(fields: seq<Descriptor>): (r: map<string, Value>)
    ensures forall name :: name in r <==> exists i :: 0 <= i < |fields| && NameOf(fields[i]) == name
    ensures forall i :: LastWithName(fields, i) ==>
      r[NameOf(fields[i])] == (if fields[i].fieldLabel.Some? then fields[i].fieldLabel.value else StrV(NameOf(fields[i])))
  {
    IndexByNameKeys(fields, LabelOf);
    IndexByNameValues(fields, LabelOf);
    IndexByName(fields, LabelOf)
  }

  /** The choices a descriptor contributes: `field.get('choices', [])`. */
  function ChoicesOf(d: Descriptor): Value {
    d.choices.ValueOr(ListV([]))
  }

  /** `composite_get_choices_dict(field_list)`: every field name maps to the
      choices of the last descriptor with that name, `[]` when it has none. */
  function ChoicesDict(fields: seq<Descriptor>): (r: map<string, Value>)
    ensures forall name :: name in r <==> exists i :: 0 <= i < |fields| && NameOf(fields[i]) == name
    ensures forall i :: LastWithName(fields, i) ==>
      r[NameOf(fields[i])] == (if fields[i].choices.Some? then fields[i].choices.value else ListV([]))
  {
    IndexByNameKeys(fields, ChoicesOf);
    IndexByNameValues(fields, ChoicesOf);
    IndexByName(fields, ChoicesOf)
  }

  /** `composite_get_name_list(field_list)`: the non-empty field names in
      list order. */
  function NameList(fields: seq<Descriptor>): (r: seq<string>)
    ensures |r| <= |fields|
    ensures forall name :: name in r <==> name != "" && exists i :: 0 <= i < |fields| && NameOf(fields[i]) == name
    decreases |fields|
  {
    if fields == [] then []
    else
      var rest := NameList(fields[1..]);
      assert forall i :: 1 <= i < |fields| ==> fields[i] == fields[1..][i - 1];
      if NameOf(fields[0]) != "" then [NameOf(fields[0])] + rest else rest
  }

  /** The name list of two descriptor lists one after the other is the two
      name lists one after the other: names keep the descriptors' order. */
  lemma {:induction false} NameListAppend(xs: seq<Descriptor>, ys: seq<Descriptor>)
    ensures NameList(xs + ys) == NameList(xs) + NameList(ys)
    decreases |xs|
  {
    if xs != [] {
      assert (xs + ys)[1..] == xs[1..] + ys;
      NameListAppend(xs[1..], ys);
    } else {
      assert xs + ys == ys;
    }
  }

  /** `composite_is_list(value)`. */
  predicate IsList(v: Value) {
    v.ListV?
  }

  /** The texts of a list whose items are all `str`. */
  function Texts(items: seq<Value>): (r: seq<string>)
    requires forall i :: 0 <= i < |items| ==> items[i].StrV?
    ensures |r| == |items| && forall i :: 0 <= i < |items| ==> r[i] == items[i].s
    decreases |items|
  {
    if items == [] then [] else [items[0].s] + Texts(items[1..])
  }

  /** `composite_join_list(value, sep)`: a non-empty list is joined with
      `sep` (`str.join` raises TypeError on an item that is not a `str`);
      anything else is rendered with `str()`, given here as `show`. */
  function JoinList(v: Value, sep: string, show: Value -> string): (r: Result<string>)
    ensures Truthy(v) && IsList(v) && (forall i :: 0 <= i < |v.items| ==> v.items[i].StrV?) ==>
      r == Ok(Join(Texts(v.items), sep)) && (|v.items| == 1 ==> r.value == v.items[0].s)
    ensures Truthy(v) && IsList(v) && (exists i :: 0 <= i < |v.items| && !v.items[i].StrV?) ==>
      r == Raised(TypeError)
    ensures !(Truthy(v) && IsList(v)) ==> r == Ok(show(v))
  {
    if Truthy(v) && IsList(v) then
      if forall i :: 0 <= i < |v.items| ==> v.items[i].StrV? then Ok(Join(Texts(v.items), sep))
      else Raised(TypeError)
    else Ok(show(v))
  }

  /** A list value holding the given strings. */
  function StrList(parts: seq<string>): (v: Value)
    ensures v.ListV? && |v.items| == |parts|
    ensures forall i :: 0 <= i < |parts| ==> v.items[i] == StrV(parts[i])
  {
    ListV(seq(|parts|, i requires 0 <= i < |parts| => StrV(parts[i])))
  }

  /** Splitting the joined text at `sep` gives back the list's strings, as
      long as no string introduces a separator of its own. */
  lemma JoinListSplit(parts: seq<string>, sep: string, show: Value -> string)
    requires |sep| > 0 && |parts| >= 1
    requires forall i :: 0 <= i < |parts| - 1 ==> SplitsCleanly(parts[i], sep)
    requires !Contains(parts[|parts| - 1], sep)
    ensures JoinList(StrList(parts), sep, show) == Ok(Join(parts, sep))
    ensures Split(JoinList(StrList(parts), sep, show).value, sep, -1) == parts
  {
    var v := StrList(parts);
    assert Truthy(v);
    assert Texts(v.items) == parts;
    SplitJoin(parts, sep);
  }

  /** `composite_get_as_dict(value)`: a dict is returned as it is, JSON
      text is decoded, and anything else (or text that does not decode)
      gives `{}`. */
  function GetAsDict(v: Value, parse: string -> Option<Value>): (r: Value)
    ensures v.DictV? ==> r == v
    ensures v.StrV? && parse(v.s).Some? ==> r == parse(v.s).value
    ensures !v.DictV? && !(v.StrV? && parse(v.s).Some?) ==> r == DictV(map[])
  {
    if v.DictV? then v else LoadsOr(parse, v, DictV(map[]))
  }

  /** Storing a dict as JSON text and reading it back with `GetAsDict`
      gives the dict, whenever `dump` is an encoder that `parse` inverts;
      reading the result again changes nothing. A corollary of the cases
      of `GetAsDict`'s contract, spelled out as the round trip. */
  lemma GetAsDictRoundTrip(m: map<string, Value>, parse: string -> Option<Value>, dump: Value -> string)
    requires parse(dump(DictV(m))) == Some(DictV(m))
    ensures GetAsDict(StrV(dump(DictV(m))), parse) == DictV(m)
    ensures GetAsDict(GetAsDict(StrV(dump(DictV(m))), parse), parse) == DictV(m)
  {
  }
}

=== FILE: keys.dfy ===
/** The key selection shared by both resolvers: the form keys that belong
    to a composite field, in the order the resolvers visit them. */
module Keys {
  import opened PyValues
  import opened Text
  import Ordering

  /** `re.match(fieldName + sep + ".+", key)` succeeds: the key starts with
      the field name and the separator, and at least one more character that
      is not a newline follows (`.` does not match a newline). The field
      name and separator are taken literally. */
  predicate Matches(fieldName: string, sep: string, key: string) {
    var p := fieldName + sep;
    StartsWith(key, p) && |key| > |p| && key[|p|] != '\n'
  }

  /** `sorted(k for k in data.keys() if it matches)`. */
  function MatchingKeys(fieldName: string, sep: string, data: map<string, Value>): (r: seq<string>)
    ensures forall k :: k in r <==> k in data && Matches(fieldName, sep, k)
    ensures Ordering.StrictlySorted(r)
  {
    Ordering.SortedStrings(set k | k in data && Matches(fieldName, sep, k))
  }

  /** Where the text after the first separator starts, in every key that
      matches: the first separator of `fieldName + sep` is never beyond the
      appended one, and keys that start with that text share it. */
  function SubfieldStart(fieldName: string, sep: string): (o: nat)
    requires |sep| > 0
    ensures |sep| <= o <= |fieldName + sep|
    ensures OccursAt(fieldName + sep, sep, o - |sep|)
    ensures FindFirst(fieldName + sep, sep) == Some(o - |sep|)
  {
    assert OccursAt(fieldName + sep, sep, |fieldName|);
    FindFirst(fieldName + sep, sep).value + |sep|
  }

  /** The text after the first separator of a matching key. */
  function AfterFirstSep(fieldName: string, sep: string, key: string): string
    requires |sep| > 0 && Matches(fieldName, sep, key)
  {
    key[SubfieldStart(fieldName, sep)..]
  }

  /** `key.split(sep, 1)` of a matching key always has two pieces (so the
      `len(split_list) < 2` guard never fires) and the second is the text
      after the key's first separator. When the field name itself contains
      the separator, that text starts with the rest of the field name. */
  lemma SplitOnceOfMatching(fieldName: string, sep: string, key: string)
    requires |sep| > 0 && Matches(fieldName, sep, key)
    ensures var parts := Split(key, sep, 1);
      |parts| == 2 && parts[1] == AfterFirstSep(fieldName, sep, key)
    ensures AfterFirstSep(fieldName, sep, key)
      == (fieldName + sep)[SubfieldStart(fieldName, sep)..] + key[|fieldName + sep|..]
  {
    var p := fieldName + sep;
    var o := SubfieldStart(fieldName, sep);
    FindFirstInPrefix(key, p, sep);
    assert key[..|p|] == p;
    assert key[o..] == key[..|p|][o..] + key[|p|..];
  }

  /** Distinct matching keys leave distinct text after their first
      separator, so no two of them write the same subfield. */
  lemma AfterFirstSepInjective(fieldName: string, sep: string, k1: string, k2: string)
    requires |sep| > 0 && Matches(fieldName, sep, k1) && Matches(fieldName, sep, k2)
    requires AfterFirstSep(fieldName, sep, k1) == AfterFirstSep(fieldName, sep, k2)
    ensures k1 == k2
  {
    var p := fieldName + sep;
    var o := SubfieldStart(fieldName, sep);
    assert k1[..|p|] == p && k2[..|p|] == p;
    assert k1[..o] == p[..o] == k2[..o];
    assert k1 == k1[..o] + k1[o..];
    assert k2 == k2[..o] + k2[o..];
  }

  /** The stored-value slot itself (`data[fieldName]`) is never one of the
      field's form keys. */
  lemma FieldNameDoesNotMatch(fieldName: string, sep: string)
    ensures !Matches(fieldName, sep, fieldName)
  {
  }
}

=== FILE: numbers.dfy ===
/** Python's `int(text)` on the index segment of a repeating key, and
    `str(n)` as its inverse. */
module Numbers {
  import opened PyValues

  predicate IsDigit(c: char) {
    '0' <= c <= '9'
  }

  predicate AllDigits(ds: string) {
    forall i :: 0 <= i < |ds| ==> IsDigit(ds[i])
  }

  /** The ASCII whitespace `int()` skips around its argument: space, tab,
      line feed, vertical tab, form feed and carriage return. The ASCII
      separators U+001C to U+001F, which `str.isspace` accepts, are not
      skipped: `int()` rejects them. */
  predicate IsSpace(c: char) {
    c == ' ' || 9 <= c as int <= 13
  }

  /** The decimal value of a run of digits, most significant first. */
  function DigitsValue(ds: string): nat
    requires AllDigits(ds)
    decreases |ds|
  {
    if ds == [] then 0
    else DigitsValue(ds[..|ds| - 1]) * 10 + (ds[|ds| - 1] as int - '0' as int)
  }

  /** `s.lstrip()` restricted to `IsSpace`: the longest suffix of `s` that
      does not start with whitespace, and only whitespace was removed. */
  function StripLeft(s: string): (r: string)
    ensures |r| <= |s| && r == s[|s| - |r|..]
    ensures r != [] ==> !IsSpace(r[0])
    ensures forall i :: 0 <= i < |s| - |r| ==> IsSpace(s[i])
    decreases |s|
  {
    if s != [] && IsSpace(s[0]) then StripLeft(s[1..]) else s
  }

  /** `s.rstrip()` restricted to `IsSpace`: the longest prefix of `s` that
      does not end with whitespace, and only whitespace was removed. */
  function StripRight(s: string): (r: string)
    ensures |r| <= |s| && r == s[..|r|]
    ensures r != [] ==> !IsSpace(r[|r| - 1])
    ensures forall i :: |r| <= i < |s| ==> IsSpace(s[i])
    decreases |s|
  {
    if s != [] && IsSpace(s[|s| - 1]) then StripRight(s[..|s| - 1]) else s
  }

  /** `int()` on a text already stripped of surrounding whitespace: an
      optional sign, then one or more decimal digits. */
  function ParseSigned(t: string): Option<int> {
    if t == [] then None
    else
      var body := if t[0] == '-' || t[0] == '+' then t[1..] else t;
      if body == [] || !AllDigits(body) then None
      else
        var magnitude: int := DigitsValue(body);
        Some(if t[0] == '-' then -magnitude else magnitude)
  }

  /** `int(s)`: surrounding whitespace, an optional sign, then one or more
      decimal digits; anything else makes `int()` raise ValueError, so
      `"\x1c5"` is rejected. A plain
      run of digits gives its decimal value, and a text without a digit
      always raises. */
  function ParseInt(s: string): (r: Option<int>)
    ensures s != [] && AllDigits(s) ==> r == Some(DigitsValue(s))
    ensures (forall i :: 0 <= i < |s| ==> !IsDigit(s[i])) ==> r.None?
  {
    PlainDigits(s);
    NoDigits(s);
    ParseSigned(StripRight(StripLeft(s)))
  }

  /** A plain run of digits is its own stripped form and parses to its
      decimal value. */
  lemma {:induction false} PlainDigits(s: string)
    ensures s != [] && AllDigits(s) ==> ParseSigned(StripRight(StripLeft(s))) == Some(DigitsValue(s))
  {
    if s != [] && AllDigits(s) {
      Unpadded(s);
    }
  }

  /** Stripping keeps only characters of `s`, so a text without a digit
      leaves nothing for `int()` to read. */
  lemma {:induction false} NoDigits(s: string)
    ensures (forall i :: 0 <= i < |s| ==> !IsDigit(s[i])) ==> ParseSigned(StripRight(StripLeft(s))).None?
  {
    var u := StripLeft(s);
    var t := StripRight(u);
    if (forall i :: 0 <= i < |s| ==> !IsDigit(s[i])) && t != [] {
      assert t[|t| - 1] == u[|t| - 1];
      assert u[|t| - 1] == s[|s| - |u| + |t| - 1];
      LastNotDigit(t);
    }
  }

  /** A stripped text that does not end in a digit is rejected. */
  lemma {:induction false} LastNotDigit(t: string)
    requires t != [] && !IsDigit(t[|t| - 1])
    ensures ParseSigned(t).None?
  {
    if t[0] == '-' || t[0] == '+' {
      if |t| > 1 {
        assert t[1..][|t| - 2] == t[|t| - 1];
      }
    }
  }

  /** Leading whitespace before a text that does not start with it is
      stripped away entirely. */
  lemma {:induction false} StripLeftSpaces(ws: string, t: string)
    requires forall i :: 0 <= i < |ws| ==> IsSpace(ws[i])
    requires t == [] || !IsSpace(t[0])
    ensures StripLeft(ws + t) == t
    decreases |ws|
  {
    if ws == [] {
      assert ws + t == t;
    } else {
      assert (ws + t)[1..] == ws[1..] + t;
      StripLeftSpaces(ws[1..], t);
    }
  }

  /** Trailing whitespace after a text that does not end with it is
      stripped away entirely. */
  lemma {:induction false} StripRightSpaces(t: string, ws: string)
    requires forall i :: 0 <= i < |ws| ==> IsSpace(ws[i])
    requires t == [] || !IsSpace(t[|t| - 1])
    ensures StripRight(t + ws) == t
    decreases |ws|
  {
    if ws == [] {
      assert t + ws == t;
    } else {
      assert (t + ws)[..|t + ws| - 1] == t + ws[..|ws| - 1];
      StripRightSpaces(t, ws[..|ws| - 1]);
    }
  }

  /** `int()` ignores whitespace around its argument: padding a text with
      whitespace on either side does not change what it parses to. */
  lemma {:induction false} ParseIntTrimmed(ws1: string, t: string, ws2: string)
    requires forall i :: 0 <= i < |ws1| ==> IsSpace(ws1[i])
    requires forall i :: 0 <= i < |ws2| ==> IsSpace(ws2[i])
    requires t != [] && !IsSpace(t[0]) && !IsSpace(t[|t| - 1])
    ensures ParseInt(ws1 + t + ws2) == ParseInt(t)
  {
    assert ws1 + t + ws2 == ws1 + (t + ws2);
    StripLeftSpaces(ws1, t + ws2);
    StripRightSpaces(t, ws2);
    Unpadded(t);
  }

  /** A text with no whitespace at either end is left as it is by
      stripping. */
  lemma {:induction false} Unpadded(t: string)
    requires t != [] && !IsSpace(t[0]) && !IsSpace(t[|t| - 1])
    ensures StripRight(StripLeft(t)) == t
  {
    StripLeftSpaces([], t);
    assert [] + t == t;
    StripRightSpaces(t, []);
    assert t + [] == t;
  }

  /** A sign before the digits: `int("-" + ds) == -int(ds)` and
      `int("+" + ds) == int(ds)`. */
  lemma ParseIntSigned(ds: string)
    requires ds != [] && AllDigits(ds)
    ensures ParseInt("-" + ds) == Some(-(DigitsValue(ds) as int))
    ensures ParseInt("+" + ds) == Some(DigitsValue(ds))
  {
    SignedDigits('-', ds);
    SignedDigits('+', ds);
  }

  /** One signed run of digits, as `ParseIntSigned` states it. */
  lemma {:induction false} SignedDigits(sign: char, ds: string)
    requires sign == '-' || sign == '+'
    requires ds != [] && AllDigits(ds)
    ensures ParseInt([sign] + ds)
      == Some(if sign == '-' then -(DigitsValue(ds) as int) else DigitsValue(ds))
  {
    var t := [sign] + ds;
    assert t[|t| - 1] == ds[|ds| - 1];
    Unpadded(t);
    SignedBody(sign, ds);
  }

  lemma {:induction false} SignedBody(sign: char, ds: string)
    requires sign == '-' || sign == '+'
    requires ds != [] && AllDigits(ds)
    ensures ParseSigned([sign] + ds)
      == Some(if sign == '-' then -(DigitsValue(ds) as int) else DigitsValue(ds))
  {
    var t := [sign] + ds;
    assert t[0] == sign;
    assert t[1..] == ds;
  }

  /** `int()` raises ValueError on a text holding any character other than
      whitespace, a digit or a sign, wherever that character stands: `"1a"`,
      `"\x1c5"` and `"5\x1f"` are all rejected. */
  lemma {:induction false} ParseIntRejectsForeign(s: string, i: int)
    requires 0 <= i < |s| && !IsSpace(s[i]) && !IsDigit(s[i]) && s[i] != '+' && s[i] != '-'
    ensures ParseInt(s).None?
  {
    var k := StrippedIndex(s, i);
    SignedRejects(StripRight(StripLeft(s)), k);
  }

  /** A character that is not whitespace survives stripping: it stands at
      position `k` of the stripped text. */
  lemma {:induction false} StrippedIndex(s: string, i: int) returns (k: int)
    requires 0 <= i < |s| && !IsSpace(s[i])
    ensures 0 <= k < |StripRight(StripLeft(s))| && StripRight(StripLeft(s))[k] == s[i]
  {
    var u := StripLeft(s);
    var t := StripRight(u);
    var off := |s| - |u|;
    assert i >= off;
    k := i - off;
    assert u[k] == s[i];
    assert k < |t|;
    assert t[k] == u[k];
  }

  /** The same for a text already stripped of whitespace. */
  lemma {:induction false} SignedRejects(t: string, k: int)
    requires 0 <= k < |t| && !IsDigit(t[k]) && t[k] != '+' && t[k] != '-'
    ensures ParseSigned(t).None?
  {
    if t[0] == '-' || t[0] == '+' {
      assert k >= 1;
      assert t[1..][k - 1] == t[k];
    } else {
      assert !IsDigit(t[k]);
    }
  }

  /** `int()` skips a space and a tab around the digits, but rejects the
      information separators U+001C and U+001F: instances of
      `ParseIntTrimmed` and `ParseIntRejectsForeign` on short texts. */
  lemma ParseIntSpacing()
    ensures ParseInt(" 5\t") == Some(5)
    ensures ParseInt([28 as char, '5']) == None
    ensures ParseInt(['5', 31 as char]) == None
  {
    assert StripLeft(" 5\t") == "5\t";
    assert StripRight("5\t") == "5";
    assert DigitsValue("5") == 5;
    ParseIntRejectsForeign([28 as char, '5'], 0);
    ParseIntRejectsForeign(['5', 31 as char], 1);
  }

  function DigitChar(d: nat): (c: char)
    requires d < 10
    ensures IsDigit(c) && c as int - '0' as int == d
  {
    (d + '0' as int) as char
  }

  /** `str(n)` for a natural number: its shortest decimal digits. */
  function NatToString(n: nat): (r: string)
    ensures r != [] && AllDigits(r)
    ensures DigitsValue(r) == n
    decreases n
  {
    if n < 10 then [DigitChar(n)]
    else
      var r := NatToString(n / 10) + [DigitChar(n % 10)];
      assert r[..|r| - 1] == NatToString(n / 10);
      r
  }

  /** `str(n)` for any integer. */
  function IntToString(n: int): string {
    if n < 0 then "-" + NatToString(-n) else NatToString(n)
  }

  lemma StripDigits(ds: string)
    requires ds != [] && AllDigits(ds)
    ensures StripRight(StripLeft(ds)) == ds
  {
  }

  /** `int(str(n)) == n`: the index segments the form itself writes parse
      back to the index they came from. */
  lemma ParseIntOfIntToString(n: int)
    ensures ParseInt(IntToString(n)) == Some(n)
  {
    var ds := NatToString(if n < 0 then -n else n);
    if n < 0 {
      var t := "-" + ds;
      assert StripLeft(t) == t;
      assert StripRight(t) == t;
      assert t[1..] == ds;
    } else {
      StripDigits(ds);
    }
  }

  /** Leading zeros do not change a run of digits' value. */
  lemma {:induction false} LeadingZero(ds: string)
    requires AllDigits(ds)
    ensures AllDigits("0" + ds) && DigitsValue("0" + ds) == DigitsValue(ds)
    decreases |ds|
  {
    if ds != [] {
      LeadingZero(ds[..|ds| - 1]);
      assert ("0" + ds)[..|ds|] == "0" + ds[..|ds| - 1];
    }
  }

  /** `int("0" + ds) == int(ds)` for a run of digits, so the keys `r-01-x` and
      `r-1-x` name the same row. */
  lemma ParseIntLeadingZero(ds: string)
    requires ds != [] && AllDigits(ds)
    ensures ParseInt("0" + ds) == ParseInt(ds) == Some(DigitsValue(ds))
  {
    LeadingZero(ds);
    StripDigits(ds);
    StripDigits("0" + ds);
  }
}

=== FILE: ordering.dfy ===
/** Python's ordering of `str` values (lexicographic by code point) and of
    `int` values, and `sorted()` of a finite set of either. */
module Ordering {

  /** `a <= b` on Python strings: lexicographic, code point by code point,
      a proper prefix sorting first. */
  predicate Le(a: string, b: string)
    decreases |a|
  {
    |a| == 0 || (|b| > 0 && (a[0] < b[0] || (a[0] == b[0] && Le(a[1..], b[1..]))))
  }

  lemma {:induction false} LeReflexive(a: string)
    ensures Le(a, a)
    decreases |a|
  {
    if |a| > 0 {
      LeReflexive(a[1..]);
    }
  }

  lemma {:induction false} LeAntisymmetric(a: string, b: string)
    requires Le(a, b) && Le(b, a)
    ensures a == b
    decreases |a|
  {
    if |a| > 0 {
      LeAntisymmetric(a[1..], b[1..]);
      assert a == [a[0]] + a[1..];
      assert b == [b[0]] + b[1..];
    }
  }

  lemma {:induction false} LeTransitive(a: string, b: string, c: string)
    requires Le(a, b) && Le(b, c)
    ensures Le(a, c)
    decreases |a|
  {
    if |a| > 0 && a[0] == b[0] && b[0] == c[0] {
      LeTransitive(a[1..], b[1..], c[1..]);
    }
  }

  lemma {:induction false} LeTotal(a: string, b: string)
    ensures Le(a, b) || Le(b, a)
    decreases |a|
  {
    if |a| > 0 && |b| > 0 && a[0] == b[0] {
      LeTotal(a[1..], b[1..]);
    }
  }

  /** `m` is the first element of `s` in string order. */
  predicate IsLeast(m: string, s: set<string>) {
    m in s && forall x :: x in s ==> Le(m, x)
  }

  lemma {:induction false} LeastExists(s: set<string>)
    requires s != {}
    ensures exists m :: IsLeast(m, s)
    decreases |s|
  {
    var x :| x in s;
    if s == {x} {
      LeReflexive(x);
      assert IsLeast(x, s);
    } else {
      LeastExists(s - {x});
      var m :| IsLeast(m, s - {x});
      LeTotal(m, x);
      if Le(m, x) {
        assert IsLeast(m, s);
      } else {
        forall y | y in s
          ensures Le(x, y)
        {
          if y == x {
            LeReflexive(x);
          } else {
            LeTransitive(x, m, y);
          }
        }
        assert IsLeast(x, s);
      }
    }
  }

  lemma LeastUnique(s: set<string>)
    ensures forall m, m' :: IsLeast(m, s) && IsLeast(m', s) ==> m == m'
  {
    forall m, m' | IsLeast(m, s) && IsLeast(m', s)
      ensures m == m'
    {
      LeAntisymmetric(m, m');
    }
  }

  /** A sequence of strings in strictly ascending order. */
  predicate StrictlySorted(r: seq<string>) {
    forall i, j :: 0 <= i < j < |r| ==> Le(r[i], r[j]) && r[i] != r[j]
  }

  /** `sorted(s)` for a set of strings: its elements in ascending order. */
  function SortedStrings(s: set<string>): (r: seq<string>)
    ensures |r| == |s|
    ensures forall k :: k in r <==> k in s
    ensures StrictlySorted(r)
    decreases |s|
  {
    if s == {} then []
    else
      LeastExists(s);
      LeastUnique(s);
      var m :| IsLeast(m, s);
      var rest := SortedStrings(s - {m});
      var r := [m] + rest;
      forall i, j | 0 <= i < j < |r|
        ensures Le(r[i], r[j]) && r[i] != r[j]
      {
        assert r[j] == rest[j - 1];
        if i == 0 {
          assert rest[j - 1] in s - {m};
        } else {
          assert r[i] == rest[i - 1];
        }
      }
      r
  }

  /** A sequence of integers in strictly ascending order. */
  predicate Ascending(r: seq<int>) {
    forall i, j :: 0 <= i < j < |r| ==> r[i] < r[j]
  }

  /** Inserts `x` into the ascending sequence `xs`, keeping it ascending and
      free of repetitions. */
  function Insert(x: int, xs: seq<int>): (r: seq<int>)
    requires Ascending(xs)
    ensures Ascending(r)
    ensures forall k :: k in r <==> k == x || k in xs
    decreases |xs|
  {
    if xs == [] then [x]
    else if x < xs[0] then [x] + xs
    else if x == xs[0] then xs
    else
      var rest := Insert(x, xs[1..]);
      assert forall k :: k in rest ==> xs[0] < k by {
        forall k | k in xs[1..]
          ensures xs[0] < k
        {
          var j :| 0 <= j < |xs[1..]| && xs[1..][j] == k;
          assert xs[j + 1] == k;
        }
      }
      ConsAscending(xs[0], rest);
      assert forall k :: k in xs <==> k == xs[0] || k in xs[1..];
      [xs[0]] + rest
  }

  /** A head below every element of an ascending tail keeps it ascending. */
  lemma ConsAscending(h: int, rest: seq<int>)
    requires Ascending(rest)
    requires forall k :: k in rest ==> h < k
    ensures Ascending([h] + rest)
    ensures forall k :: k in [h] + rest <==> k == h || k in rest
  {
    var r := [h] + rest;
    forall i, j | 0 <= i < j < |r|
      ensures r[i] < r[j]
    {
      assert r[j] == rest[j - 1] && rest[j - 1] in rest;
      if i > 0 {
        assert r[i] == rest[i - 1];
      }
    }
  }

  /** The distinct elements of `xs` in ascending order: what `sorted()`
      yields for the keys of a dict whose keys were inserted as `xs`. */
  function SortDistinct(xs: seq<int>): (r: seq<int>)
    ensures Ascending(r)
    ensures forall k :: k in r <==> k in xs
    decreases |xs|
  {
    if xs == [] then [] else Insert(xs[|xs| - 1], SortDistinct(xs[..|xs| - 1]))
  }
}

=== FILE: repeating.dfy ===
/** `composite_repeating_get_value_dict_list`: the rows of a repeating
    composite field, rebuilt from the submitted form keys
    `<field><sep><index><sep><subfield>` when there are any, read from the
    stored slot otherwise, padded with blank rows for an empty form and
    optionally stripped of blank rows. */
module Repeating {
  import opened PyValues
  import opened Text
  import opened Keys
  import opened Numbers
  import Ordering
  import opened TemplateHelpers

  /** `value_dict` of `build_value_dict_list`: a Python dict from row index
      to the row's subfields. `order` is the dict's insertion order of its
      keys, which `sorted()` later discards. */
  datatype Groups = Groups(order: seq<int>, rows: map<int, map<string, Value>>)

  /** What one form key does in the loop of `build_value_dict_list`. */
  datatype KeyRole =
    | Skip                          // empty value, or fewer than three pieces
    | Bad                           // `int()` raises ValueError on the index
    | Cell(idx: int, sub: string)   // writes subfield `sub` of row `idx`

  /** The role of key `k`: a falsy value is skipped, `k.split(sep, 2)`
      needs three pieces, and the middle one goes through `int()`. */
  function Role(sep: string, data: map<string, Value>, k: string): KeyRole
    requires |sep| > 0 && k in data
  {
    if !Truthy(data[k]) then Skip
    else
      var parts := Split(k, sep, 2);
      if |parts| < 3 then Skip
      else match ParseInt(parts[1])
        case None => Bad
        case Some(idx) => Cell(idx, parts[2])
  }

  /** A form key on which `int()` raises ValueError. */
  predicate BadIndex(fieldName: string, sep: string, data: map<string, Value>, k: string) {
    |sep| > 0 && k in data && Matches(fieldName, sep, k) && Role(sep, data, k) == Bad
  }

  /** A form key that writes `data[k]` as subfield `sub` of row `idx`. */
  predicate WritesCell(fieldName: string, sep: string, data: map<string, Value>, k: string, idx: int, sub: string) {
    |sep| > 0 && k in data && Matches(fieldName, sep, k) && Role(sep, data, k) == Cell(idx, sub)
  }

  /** `value_dict[index][subfield] = value`, after `value_dict[index] = {}`
      when `value_dict.get(index)` is falsy. */
  function Place(g: Groups, idx: int, sub: string, v: Value): Groups {
    var row := if idx !in g.rows || g.rows[idx] == map[] then map[] else g.rows[idx];
    Groups(if idx in g.rows then g.order else g.order + [idx], g.rows[idx := row[sub := v]])
  }

  /** One pass of the loop, for a key of role `role` holding `v`. A raised
      exception ends the loop. */
  function GroupStep(acc: Result<Groups>, role: KeyRole, v: Value): Result<Groups> {
    if acc.Raised? then acc
    else match role
      case Skip => acc
      case Bad => Raised(ValueError)
      case Cell(idx, sub) => Ok(Place(acc.value, idx, sub, v))
  }

  /** The loop over keys whose roles and values are `steps`, in order. */
  function Fold(steps: seq<(KeyRole, Value)>): Result<Groups>
    decreases |steps|
  {
    if steps == [] then Ok(Groups([], map[]))
    else
      var last := steps[|steps| - 1];
      GroupStep(Fold(steps[..|steps| - 1]), last.0, last.1)
  }

  /** The role and value of each key of `ks`. */
  function Steps(sep: string, data: map<string, Value>, ks: seq<string>): (r: seq<(KeyRole, Value)>)
    requires |sep| > 0
    requires forall i :: 0 <= i < |ks| ==> ks[i] in data
    ensures |r| == |ks| && forall i :: 0 <= i < |ks| ==> r[i] == (Role(sep, data, ks[i]), data[ks[i]])
  {
    seq(|ks|, i requires 0 <= i < |ks| => (Role(sep, data, ks[i]), data[ks[i]]))
  }

  /** `build_value_dict_list()` up to the final sort: the rows grouped from
      the submitted keys, visited in sorted order. */
  function FormGroups(fieldName: string, sep: string, data: map<string, Value>): (r: Result<Groups>)
    requires |sep| > 0
    ensures r.Raised? ==> r.error == ValueError
  {
    FoldRaises(Steps(sep, data, MatchingKeys(fieldName, sep, data)));
    Fold(Steps(sep, data, MatchingKeys(fieldName, sep, data)))
  }

  /** `steps[i]` is the last step that writes subfield `sub` of row `idx`. */
  predicate LastCell(steps: seq<(KeyRole, Value)>, i: int, idx: int, sub: string) {
    && 0 <= i < |steps|
    && steps[i].0 == Cell(idx, sub)
    && forall j :: i < j < |steps| ==> steps[j].0 != Cell(idx, sub)
  }

  /** The loop raises exactly when some key has an index that is not an
      integer, and then it raises ValueError. */
  lemma {:induction false} FoldRaises(steps: seq<(KeyRole, Value)>)
    ensures Fold(steps).Raised? <==> exists i :: 0 <= i < |steps| && steps[i].0 == Bad
    ensures Fold(steps).Raised? ==> Fold(steps).error == ValueError
    decreases |steps|
  {
    if steps != [] {
      var n := |steps| - 1;
      var prefix := steps[..n];
      FoldRaises(prefix);
      assert forall i :: 0 <= i < n ==> prefix[i] == steps[i];
      if Fold(prefix).Raised? {
        var i :| 0 <= i < |prefix| && prefix[i].0 == Bad;
        assert steps[i].0 == Bad;
      }
    }
  }

  /** While the loop runs, the dict's insertion order lists exactly its
      keys, and every row it holds is non-empty. */
  lemma {:induction false} FoldWellFormed(steps: seq<(KeyRole, Value)>)
    requires Fold(steps).Ok?
    ensures forall idx :: idx in Fold(steps).value.order <==> idx in Fold(steps).value.rows
    ensures forall idx :: idx in Fold(steps).value.rows ==> Fold(steps).value.rows[idx] != map[]
    decreases |steps|
  {
    if steps != [] {
      var prefix := steps[..|steps| - 1];
      FoldWellFormed(prefix);
      var last := steps[|steps| - 1];
      if last.0.Cell? {
        var g := Fold(prefix).value;
        var g' := Fold(steps).value;
        assert g' == Place(g, last.0.idx, last.0.sub, last.1);
        assert last.0.sub in g'.rows[last.0.idx];
      }
    }
  }

  /** Every subfield some step writes is in the result. */
  lemma {:induction false} FoldCovers(steps: seq<(KeyRole, Value)>)
    requires Fold(steps).Ok?
    ensures forall i :: 0 <= i < |steps| && steps[i].0.Cell? ==>
      steps[i].0.idx in Fold(steps).value.rows && steps[i].0.sub in Fold(steps).value.rows[steps[i].0.idx]
    decreases |steps|
  {
    if steps != [] {
      var n := |steps| - 1;
      var prefix := steps[..n];
      FoldCovers(prefix);
      FoldWellFormed(prefix);
      var g := Fold(prefix).value;
      var g' := Fold(steps).value;
      forall i | 0 <= i < |steps| && steps[i].0.Cell?
        ensures steps[i].0.idx in g'.rows && steps[i].0.sub in g'.rows[steps[i].0.idx]
      {
        if i < n {
          assert prefix[i] == steps[i];
          if steps[n].0.Cell? {
            assert g' == Place(g, steps[n].0.idx, steps[n].0.sub, steps[n].1);
          }
        }
      }
    }
  }

  /** Every subfield in the result holds the value of the last step that
      writes it. */
  lemma {:induction false} FoldLastWins(steps: seq<(KeyRole, Value)>)
    requires Fold(steps).Ok?
    ensures forall idx, sub :: idx in Fold(steps).value.rows && sub in Fold(steps).value.rows[idx] ==>
      exists i :: LastCell(steps, i, idx, sub) && Fold(steps).value.rows[idx][sub] == steps[i].1
    decreases |steps|
  {
    if steps != [] {
      var n := |steps| - 1;
      var prefix := steps[..n];
      FoldLastWins(prefix);
      FoldWellFormed(prefix);
      var g := Fold(prefix).value.rows;
      var g' := Fold(steps).value.rows;
      forall idx, sub | idx in g' && sub in g'[idx]
        ensures exists i :: LastCell(steps, i, idx, sub) && g'[idx][sub] == steps[i].1
      {
        if steps[n].0 == Cell(idx, sub) {
          assert LastCell(steps, n, idx, sub);
        } else {
          assert idx in g && sub in g[idx] && g'[idx][sub] == g[idx][sub];
          var i :| LastCell(prefix, i, idx, sub) && g[idx][sub] == prefix[i].1;
          assert prefix[i] == steps[i];
          forall j | i < j < |steps|
            ensures steps[j].0 != Cell(idx, sub)
          {
            if j < n {
              assert prefix[j] == steps[j];
            }
          }
          assert LastCell(steps, i, idx, sub);
        }
      }
    }
  }

  /** Lifted to the form: `build_value_dict_list` raises exactly when some
      key of the field with a truthy value and three pieces has an index
      that `int()` rejects, and the exception is ValueError. Keys with empty
      values never reach `int()`. */
  lemma FormGroupsRaises(fieldName: string, sep: string, data: map<string, Value>)
    requires |sep| > 0
    ensures FormGroups(fieldName, sep, data).Raised? <==> exists k :: BadIndex(fieldName, sep, data, k)
    ensures FormGroups(fieldName, sep, data).Raised? ==> FormGroups(fieldName, sep, data).error == ValueError
  {
    if FormGroups(fieldName, sep, data).Raised? {
      RaisedAtBadKey(fieldName, sep, data);
    }
    if exists k :: BadIndex(fieldName, sep, data, k) {
      var k :| BadIndex(fieldName, sep, data, k);
      BadKeyRaises(fieldName, sep, data, k);
    }
  }

  /** The exception of `build_value_dict_list` comes from some key whose
      index `int()` rejects. */
  lemma RaisedAtBadKey(fieldName: string, sep: string, data: map<string, Value>)
    requires |sep| > 0 && FormGroups(fieldName, sep, data).Raised?
    ensures exists k :: BadIndex(fieldName, sep, data, k)
  {
    var ks := MatchingKeys(fieldName, sep, data);
    var steps := Steps(sep, data, ks);
    assert FormGroups(fieldName, sep, data) == Fold(steps);
    FoldRaises(steps);
    var i :| 0 <= i < |steps| && steps[i].0 == Bad;
    assert BadIndex(fieldName, sep, data, ks[i]);
  }

  /** One key whose index `int()` rejects is enough to make
      `build_value_dict_list` raise. */
  lemma BadKeyRaises(fieldName: string, sep: string, data: map<string, Value>, k: string)
    requires BadIndex(fieldName, sep, data, k)
    ensures FormGroups(fieldName, sep, data).Raised?
  {
    var ks := MatchingKeys(fieldName, sep, data);
    var steps := Steps(sep, data, ks);
    assert FormGroups(fieldName, sep, data) == Fold(steps);
    assert k in ks;
    var i :| 0 <= i < |ks| && ks[i] == k;
    assert steps[i].0 == Bad;
    FoldRaises(steps);
  }

  /** Lifted to the form: the grouped rows hold exactly the subfields some
      key writes, and a row exists exactly for the indices some key writes
      to. */
  lemma {:induction false} FormGroupsKeys(fieldName: string, sep: string, data: map<string, Value>)
    requires |sep| > 0 && FormGroups(fieldName, sep, data).Ok?
    ensures forall idx, sub ::
      (idx in FormGroups(fieldName, sep, data).value.rows && sub in FormGroups(fieldName, sep, data).value.rows[idx])
      <==> exists k :: WritesCell(fieldName, sep, data, k, idx, sub)
    ensures forall idx ::
      (idx in FormGroups(fieldName, sep, data).value.rows)
      <==> exists k, sub :: WritesCell(fieldName, sep, data, k, idx, sub)
  {
    var g := FormGroups(fieldName, sep, data).value.rows;
    forall idx, sub, k | WritesCell(fieldName, sep, data, k, idx, sub)
      ensures idx in g && sub in g[idx]
    {
      CellWritten(fieldName, sep, data, k, idx, sub);
    }
    forall idx, sub | idx in g && sub in g[idx]
      ensures exists k :: WritesCell(fieldName, sep, data, k, idx, sub)
    {
      CellWriter(fieldName, sep, data, idx, sub);
    }
    forall idx | idx in g
      ensures exists k, sub :: WritesCell(fieldName, sep, data, k, idx, sub)
    {
      GroupsWellFormed(fieldName, sep, data);
      var sub :| sub in g[idx];
      CellWriter(fieldName, sep, data, idx, sub);
    }
  }

  /** A key that writes a cell puts that cell into the grouped rows. */
  lemma {:induction false} CellWritten(fieldName: string, sep: string, data: map<string, Value>, k: string, idx: int, sub: string)
    requires |sep| > 0 && FormGroups(fieldName, sep, data).Ok? && WritesCell(fieldName, sep, data, k, idx, sub)
    ensures idx in FormGroups(fieldName, sep, data).value.rows
    ensures sub in FormGroups(fieldName, sep, data).value.rows[idx]
  {
    var ks := MatchingKeys(fieldName, sep, data);
    var steps := Steps(sep, data, ks);
    assert FormGroups(fieldName, sep, data) == Fold(steps);
    FoldCovers(steps);
    assert k in ks;
    var p :| 0 <= p < |ks| && ks[p] == k;
    assert steps[p].0 == Cell(idx, sub);
  }

  /** Every cell of the grouped rows was written by some key. */
  lemma {:induction false} CellWriter(fieldName: string, sep: string, data: map<string, Value>, idx: int, sub: string)
    requires |sep| > 0 && FormGroups(fieldName, sep, data).Ok?
    requires idx in FormGroups(fieldName, sep, data).value.rows
    requires sub in FormGroups(fieldName, sep, data).value.rows[idx]
    ensures exists k :: WritesCell(fieldName, sep, data, k, idx, sub)
  {
    var ks := MatchingKeys(fieldName, sep, data);
    var steps := Steps(sep, data, ks);
    assert FormGroups(fieldName, sep, data) == Fold(steps);
    var g := Fold(steps).value.rows;
    FoldLastWins(steps);
    var i :| LastCell(steps, i, idx, sub) && g[idx][sub] == steps[i].1;
    assert WritesCell(fieldName, sep, data, ks[i], idx, sub);
  }

  /** The grouped rows are well formed: the indices in `order` are those
      with a row, and no row is an empty dict. */
  lemma {:induction false} GroupsWellFormed(fieldName: string, sep: string, data: map<string, Value>)
    requires |sep| > 0 && FormGroups(fieldName, sep, data).Ok?
    ensures forall idx :: idx in FormGroups(fieldName, sep, data).value.order <==>
      idx in FormGroups(fieldName, sep, data).value.rows
    ensures forall idx :: idx in FormGroups(fieldName, sep, data).value.rows ==>
      FormGroups(fieldName, sep, data).value.rows[idx] != map[]
  {
    var steps := Steps(sep, data, MatchingKeys(fieldName, sep, data));
    assert FormGroups(fieldName, sep, data) == Fold(steps);
    FoldWellFormed(steps);
  }

  /** Lifted to the form: when several keys write the same subfield of the
      same row (such as `r-01-x` and `r-1-x`), the greatest key in string
      order wins, because keys are visited in sorted order. */
  lemma FormGroupsLastKeyWins(fieldName: string, sep: string, data: map<string, Value>, k: string, idx: int, sub: string)
    requires |sep| > 0 && FormGroups(fieldName, sep, data).Ok?
    requires WritesCell(fieldName, sep, data, k, idx, sub)
    requires forall k' :: WritesCell(fieldName, sep, data, k', idx, sub) ==> Ordering.Le(k', k)
    ensures idx in FormGroups(fieldName, sep, data).value.rows
    ensures sub in FormGroups(fieldName, sep, data).value.rows[idx]
    ensures FormGroups(fieldName, sep, data).value.rows[idx][sub] == data[k]
  {
    var ks := MatchingKeys(fieldName, sep, data);
    var steps := Steps(sep, data, ks);
    var g := FormGroups(fieldName, sep, data).value.rows;
    FoldCovers(steps);
    FoldLastWins(steps);
    assert k in ks;
    var p :| 0 <= p < |ks| && ks[p] == k;
    assert steps[p].0 == Cell(idx, sub);
    var i :| LastCell(steps, i, idx, sub) && g[idx][sub] == steps[i].1;
    assert WritesCell(fieldName, sep, data, ks[i], idx, sub);
    if p < i {
      assert Ordering.Le(ks[i], k);
      Ordering.LeAntisymmetric(ks[p], ks[i]);
      assert false;
    }
    assert p == i;
  }

  /** Every cell of the grouping holds a truthy form value, so no grouped
      row is blank: `remove_empty_dicts` keeps every row the form yields. */
  lemma FormGroupsRowsNotBlank(fieldName: string, sep: string, data: map<string, Value>)
    requires |sep| > 0 && FormGroups(fieldName, sep, data).Ok?
    ensures forall idx :: idx in FormGroups(fieldName, sep, data).value.rows ==>
      !IsBlankRow(FormGroups(fieldName, sep, data).value.rows[idx])
  {
    var ks := MatchingKeys(fieldName, sep, data);
    var steps := Steps(sep, data, ks);
    var g := FormGroups(fieldName, sep, data).value.rows;
    FoldLastWins(steps);
    FoldWellFormed(steps);
    forall idx | idx in g
      ensures !IsBlankRow(g[idx])
    {
      var sub :| sub in g[idx];
      var i :| LastCell(steps, i, idx, sub) && g[idx][sub] == steps[i].1;
      assert Role(sep, data, ks[i]) == Cell(idx, sub);
      assert Truthy(g[idx][sub]);
    }
  }

  /** `[element[1] for element in sorted(value_dict.items())]`: the rows in
      ascending numeric order of their indices, each index once. */
  function RowsInIndexOrder(g: Groups): (r: seq<Value>)
    requires forall idx :: idx in g.order <==> idx in g.rows
    ensures exists idxs :: (
      && Ordering.Ascending(idxs)
      && (forall idx :: idx in idxs <==> idx in g.rows)
      && |idxs| == |r|
      && (forall j :: 0 <= j < |r| ==> idxs[j] in g.rows && r[j] == DictV(g.rows[idxs[j]])))
  {
    var idxs := Ordering.SortDistinct(g.order);
    seq(|idxs|, j requires 0 <= j < |idxs| => DictV(g.rows[idxs[j]]))
  }

  /** A grouping without blank rows yields only rows worth keeping. */
  lemma RowsKept(g: Groups)
    requires forall idx :: idx in g.order <==> idx in g.rows
    requires forall idx :: idx in g.rows ==> !IsBlankRow(g.rows[idx])
    ensures forall j :: 0 <= j < |RowsInIndexOrder(g)| ==> Keeps(RowsInIndexOrder(g)[j])
  {
    var rows := RowsInIndexOrder(g);
    var idxs := Ordering.SortDistinct(g.order);
    forall j | 0 <= j < |rows|
      ensures Keeps(rows[j])
    {
      assert idxs[j] in idxs;
      assert rows[j] == DictV(g.rows[idxs[j]]);
    }
  }

  /** A grouping with a row yields a non-empty, hence truthy, list. */
  lemma RowsNonEmpty(g: Groups, idx: int)
    requires forall i :: i in g.order <==> i in g.rows
    requires idx in g.rows
    ensures RowsInIndexOrder(g) != []
  {
    assert idx in g.order;
    assert idx in Ordering.SortDistinct(g.order);
  }

  /** The stored-slot fallback: a truthy list is used as it is; anything
      else truthy goes through `json.loads` with `[]` on failure, so a dict
      that is already decoded gives `[]`; a decoded JSON object is wrapped
      into a one-row list. */
  function StoredRows(stored: Option<Value>, parse: string -> Option<Value>): (r: Value)
    ensures stored.None? || !Truthy(stored.value) ==> r == ListV([])
    ensures stored.Some? && Truthy(stored.value) && stored.value.ListV? ==> r == stored.value
    ensures stored.Some? && Truthy(stored.value) && !stored.value.ListV? && !stored.value.StrV? ==> r == ListV([])
    ensures stored.Some? && Truthy(stored.value) && stored.value.StrV? ==>
      match parse(stored.value.s)
      case None => r == ListV([])
      case Some(DictV(m)) => r == ListV([DictV(m)])
      case Some(decoded) => r == decoded
  {
    if stored.None? || !Truthy(stored.value) then ListV([])
    else
      var found := if stored.value.ListV? then stored.value else LoadsOr(parse, stored.value, ListV([]));
      if found.DictV? then ListV([found]) else found
  }

  /** The blank row: every subfield descriptor's `field_name` mapped to
      `''`. A descriptor without `field_name` makes `subfield['field_name']`
      raise KeyError. */
  function BlankRow(subfields: seq<Descriptor>): (r: Result<map<string, Value>>)
    ensures r.Ok? <==> forall i :: 0 <= i < |subfields| ==> subfields[i].fieldName.Some?
    ensures r.Raised? ==> r.error == KeyError
    ensures r.Ok? ==> forall name :: name in r.value <==>
      exists i :: 0 <= i < |subfields| && subfields[i].fieldName == Some(name)
    ensures r.Ok? ==> forall name :: name in r.value ==> r.value[name] == StrV("")
    decreases |subfields|
  {
    if subfields == [] then Ok(map[])
    else
      var prefix := subfields[..|subfields| - 1];
      var d := subfields[|subfields| - 1];
      var prev := BlankRow(prefix);
      assert forall i :: 0 <= i < |prefix| ==> prefix[i] == subfields[i];
      if prev.Raised? then prev
      else if d.fieldName.None? then Raised(KeyError)
      else Ok(prev.value[d.fieldName.value := StrV("")])
  }

  /** `[row for x in range(lo, hi)]`. */
  function Repeat(row: Value, lo: int, hi: int): (r: seq<Value>)
    ensures |r| == if lo < hi then hi - lo else 0
    ensures forall j :: 0 <= j < |r| ==> r[j] == row
    decreases hi - lo
  {
    if lo >= hi then [] else [row] + Repeat(row, lo + 1, hi)
  }

  /** The rows built for an empty form: `range(1, max(field_blanks + 1, 2))`
      gives `max(field_blanks, 1)` copies of the blank row. */
  function BlankRows(subfields: seq<Descriptor>, fieldBlanks: int): (r: Result<seq<Value>>)
    ensures r.Ok? <==> forall i :: 0 <= i < |subfields| ==> subfields[i].fieldName.Some?
    ensures r.Raised? ==> r.error == KeyError
    ensures r.Ok? ==> |r.value| == if fieldBlanks > 1 then fieldBlanks else 1
    ensures r.Ok? ==> forall j :: 0 <= j < |r.value| ==>
      && r.value[j].DictV?
      && (forall name :: name in r.value[j].entries <==>
            exists i :: 0 <= i < |subfields| && subfields[i].fieldName == Some(name))
      && (forall name :: name in r.value[j].entries ==> r.value[j].entries[name] == StrV(""))
  {
    var limit := if fieldBlanks + 1 > 2 then fieldBlanks + 1 else 2;
    match BlankRow(subfields)
    case Raised(e) => Raised(e)
    case Ok(row) => Ok(Repeat(DictV(row), 1, limit))
  }

  /** `dict_is_empty`: every value of the row is `''` (so `{}` is empty). */
  predicate IsBlankRow(m: map<string, Value>) {
    forall k :: k in m ==> m[k] == StrV("")
  }

  /** A list item that survives `remove_empty_dicts`. */
  predicate Keeps(v: Value) {
    v.DictV? && !IsBlankRow(v.entries)
  }

  /** The rows of `items` that are non-blank dicts, in order. */
  function Kept(items: seq<Value>): (r: seq<Value>)
    ensures |r| <= |items|
    decreases |items|
  {
    if items == [] then []
    else (if Keeps(items[0]) then [items[0]] else []) + Kept(items[1..])
  }

  /** A list with no row worth keeping keeps nothing. */
  lemma {:induction false} NoneKept(items: seq<Value>)
    requires forall j :: 0 <= j < |items| ==> !Keeps(items[j])
    ensures Kept(items) == []
    decreases |items|
  {
    if items != [] {
      NoneKept(items[1..]);
    }
  }

  /** A list whose every row is worth keeping is kept whole. */
  lemma {:induction false} AllKept(items: seq<Value>)
    requires forall j :: 0 <= j < |items| ==> Keeps(items[j])
    ensures Kept(items) == items
    decreases |items|
  {
    if items != [] {
      AllKept(items[1..]);
      assert items == [items[0]] + items[1..];
    }
  }

  /** What survives is exactly the non-blank dicts of the list. */
  lemma {:induction false} KeptMembers(items: seq<Value>)
    ensures forall x :: x in Kept(items) <==> x in items && Keeps(x)
    decreases |items|
  {
    if items != [] {
      KeptMembers(items[1..]);
      assert forall x :: x in items <==> x == items[0] || x in items[1..];
    }
  }

  /** Filtering two lists one after the other is filtering each: the order
      of the surviving rows is kept. */
  lemma {:induction false} KeptAppend(xs: seq<Value>, ys: seq<Value>)
    ensures Kept(xs + ys) == Kept(xs) + Kept(ys)
    decreases |xs|
  {
    if xs == [] {
      assert xs + ys == ys;
    } else {
      assert (xs + ys)[0] == xs[0];
      assert (xs + ys)[1..] == xs[1..] + ys;
      KeptAppend(xs[1..], ys);
      var h := if Keeps(xs[0]) then [xs[0]] else [];
      assert Kept(xs + ys) == h + (Kept(xs[1..]) + Kept(ys));
      assert Kept(xs) == h + Kept(xs[1..]);
    }
  }

  /** Filtering an already filtered list changes nothing. */
  lemma {:induction false} KeptIdempotent(xs: seq<Value>)
    ensures Kept(Kept(xs)) == Kept(xs)
    decreases |xs|
  {
    if xs != [] {
      KeptIdempotent(xs[1..]);
      if Keeps(xs[0]) {
        var kept := [xs[0]] + Kept(xs[1..]);
        assert kept[0] == xs[0] && kept[1..] == Kept(xs[1..]);
        assert Kept(kept) == [xs[0]] + Kept(Kept(xs[1..]));
      } else {
        assert Kept(xs) == [] + Kept(xs[1..]) == Kept(xs[1..]);
      }
    }
  }

  /** `remove_empty_dicts` over a list: the rows in order without the
      blank ones; an item that is not a dict has no `.values()` and raises
      AttributeError. */
  function FilterRows(items: seq<Value>): (r: Result<seq<Value>>)
    ensures r.Ok? <==> forall i :: 0 <= i < |items| ==> items[i].DictV?
    ensures r.Raised? ==> r.error == AttributeError
    decreases |items|
  {
    if items == [] then Ok([])
    else if !items[0].DictV? then Raised(AttributeError)
    else
      var rest := FilterRows(items[1..]);
      assert forall i :: 1 <= i < |items| ==> items[i] == items[1..][i - 1];
      if rest.Raised? then rest
      else Ok((if IsBlankRow(items[0].entries) then [] else [items[0]]) + rest.value)
  }

  /** The loop of `remove_empty_dicts` keeps exactly `Kept(items)`. */
  lemma {:induction false} FilterRowsKeeps(items: seq<Value>)
    requires FilterRows(items).Ok?
    ensures FilterRows(items).value == Kept(items)
    decreases |items|
  {
    if items != [] {
      FilterRowsKeeps(items[1..]);
    }
  }

  /** `remove_empty_dicts(value_dict_list)` on whatever collecting and padding
      produced: a list is filtered; `''` and `{}` iterate as nothing; a
      non-empty `str` or dict iterates items without `.values()`
      (AttributeError); other values are not iterable (TypeError). */
  function RemoveEmpty(v: Value): (r: Result<Value>)
    ensures r.Ok? ==> r.value.ListV? && forall x :: x in r.value.items ==> Keeps(x)
    ensures r.Ok? <==> (v.ListV? && forall i :: 0 <= i < |v.items| ==> v.items[i].DictV?)
                       || v == StrV("") || v == DictV(map[])
    ensures r.Ok? && v.ListV? ==> r.value.items == Kept(v.items)
    ensures r.Ok? && !v.ListV? ==> r.value == ListV([])
    ensures r.Raised? ==> r.error != ValueError && r.error != KeyError
    ensures r.Raised? && (v.ListV? || v.StrV? || v.DictV?) ==> r.error == AttributeError
    ensures r.Raised? && !(v.ListV? || v.StrV? || v.DictV?) ==> r.error == TypeError
  {
    if v.ListV? && FilterRows(v.items).Ok? then
      FilterRowsKeeps(v.items);
      KeptMembers(v.items);
      Ok(ListV(FilterRows(v.items).value))
    else match v
    case ListV(items) =>
      (match FilterRows(items)
       case Ok(kept) => Ok(ListV(kept))
       case Raised(e) => Raised(e))
    case StrV(s) => if s == "" then Ok(ListV([])) else Raised(AttributeError)
    case DictV(m) => if m == map[] then Ok(ListV([])) else Raised(AttributeError)
    case _ => Raised(TypeError)
  }

  /** Removing blank rows twice removes nothing more. */
  lemma RemoveEmptyIdempotent(v: Value)
    requires RemoveEmpty(v).Ok?
    ensures RemoveEmpty(RemoveEmpty(v).value) == RemoveEmpty(v)
  {
    var r := RemoveEmpty(v).value;
    assert r.ListV? && forall x :: x in r.items ==> Keeps(x);
    forall i | 0 <= i < |r.items|
      ensures r.items[i].DictV?
    {
      assert r.items[i] in r.items;
    }
    assert RemoveEmpty(r).Ok?;
    if v.ListV? {
      KeptIdempotent(v.items);
      assert RemoveEmpty(r).value.items == Kept(r.items) == r.items;
    } else {
      assert r.items == [];
    }
  }

  /** Collecting: the rows rebuilt from the form when it yields any, the
      stored slot's rows otherwise. */
  function Collected(fieldName: string, sep: string, data: map<string, Value>, parse: string -> Option<Value>): (r: Result<Value>)
    requires |sep| > 0
    ensures r.Raised? <==> FormGroups(fieldName, sep, data).Raised?
    ensures r.Raised? ==> r.error == ValueError
  {
    match FormGroups(fieldName, sep, data)
    case Raised(e) => Raised(e)
    case Ok(g) =>
      if g.rows != map[] then
        FoldWellFormed(Steps(sep, data, MatchingKeys(fieldName, sep, data)));
        Ok(ListV(RowsInIndexOrder(g)))
      else Ok(StoredRows(Get(data, fieldName), parse))
  }

  /** Padding: a falsy collected value, whatever it is (`None`, `[]`, `0`,
      `''`), is replaced by the blank rows. */
  function Padded(found: Value, subfields: seq<Descriptor>, fieldBlanks: int): (r: Result<Value>)
    ensures r.Ok? ==> Truthy(r.value)
    ensures Truthy(found) ==> r == Ok(found)
    ensures !Truthy(found) ==> r == (match BlankRows(subfields, fieldBlanks)
                                     case Ok(rows) => Ok(ListV(rows))
                                     case Raised(e) => Raised(e))
    ensures r.Raised? ==> r.error == KeyError
  {
    if Truthy(found) then Ok(found)
    else match BlankRows(subfields, fieldBlanks)
      case Ok(rows) => Ok(ListV(rows))
      case Raised(e) => Raised(e)
  }

  /** Padding, then filtering when `include_empty` is false, applied to
      the collected value. Only padding's KeyError and filtering's
      AttributeError or TypeError can add to an error already raised. With
      `include_empty` the padded value is the result; without it, a padded
      list of dicts loses exactly its blank rows. */
  function Finish(found: Result<Value>, subfields: seq<Descriptor>, fieldBlanks: int, includeEmpty: bool): (r: Result<Value>)
    ensures found.Raised? ==> r == found
    ensures found.Ok? && Padded(found.value, subfields, fieldBlanks).Raised? ==>
      r == Padded(found.value, subfields, fieldBlanks)
    ensures found.Ok? && includeEmpty ==> r == Padded(found.value, subfields, fieldBlanks)
    ensures found.Ok? && !includeEmpty && Padded(found.value, subfields, fieldBlanks).Ok?
            && Padded(found.value, subfields, fieldBlanks).value.ListV?
            && (forall i :: 0 <= i < |Padded(found.value, subfields, fieldBlanks).value.items| ==>
                  Padded(found.value, subfields, fieldBlanks).value.items[i].DictV?) ==>
      r == Ok(ListV(Kept(Padded(found.value, subfields, fieldBlanks).value.items)))
    ensures found.Ok? && !includeEmpty && Padded(found.value, subfields, fieldBlanks).Ok? ==>
      r == RemoveEmpty(Padded(found.value, subfields, fieldBlanks).value)
    ensures found.Ok? ==> r.Ok? || (r.error != ValueError)
    ensures includeEmpty && r.Ok? ==> Truthy(r.value)
    ensures !includeEmpty && r.Ok? ==> r.value.ListV? && forall x :: x in r.value.items ==> Keeps(x)
  {
    match found
    case Raised(e) => Raised(e)
    case Ok(v) =>
      match Padded(v, subfields, fieldBlanks)
      case Raised(e) => Raised(e)
      case Ok(rows) => if includeEmpty then Ok(rows) else RemoveEmpty(rows)
  }

  /** `composite_repeating_get_value_dict_list(field_name, subfields, data,
      field_blanks, include_empty)`. It raises ValueError exactly when a
      submitted index is not an integer; with `include_empty` a result
      always has something to render; without it the result is a list of
      non-blank rows. */
  function ResolveRepeating(fieldName: string, subfields: seq<Descriptor>, data: map<string, Value>, sep: string,
                            parse: string -> Option<Value>, fieldBlanks: int, includeEmpty: bool): (r: Result<Value>)
    requires |sep| > 0
    ensures includeEmpty && r.Ok? ==> Truthy(r.value)
    ensures !includeEmpty && r.Ok? ==> r.value.ListV? && forall x :: x in r.value.items ==> Keeps(x)
  {
    Finish(Collected(fieldName, sep, data, parse), subfields, fieldBlanks, includeEmpty)
  }

  /** The resolver raises ValueError exactly when some key has a bad
      index; padding and filtering never raise it. */
  lemma ResolveRepeatingRaises(fieldName: string, subfields: seq<Descriptor>, data: map<string, Value>, sep: string,
                               parse: string -> Option<Value>, fieldBlanks: int, includeEmpty: bool)
    requires |sep| > 0
    ensures ResolveRepeating(fieldName, subfields, data, sep, parse, fieldBlanks, includeEmpty) == Raised(ValueError)
        <==> exists k :: BadIndex(fieldName, sep, data, k)
  {
    FormGroupsRaises(fieldName, sep, data);
  }

  /** The grouping reads `data` only at the field's keys. */
  lemma FormGroupsFrame(fieldName: string, sep: string, data: map<string, Value>, data': map<string, Value>)
    requires |sep| > 0
    requires forall k :: Matches(fieldName, sep, k) ==> (k in data <==> k in data')
    requires forall k :: Matches(fieldName, sep, k) && k in data ==> data[k] == data'[k]
    ensures FormGroups(fieldName, sep, data) == FormGroups(fieldName, sep, data')
  {
    assert (set k | k in data && Matches(fieldName, sep, k)) == (set k | k in data' && Matches(fieldName, sep, k));
    var ks := MatchingKeys(fieldName, sep, data);
    assert ks == MatchingKeys(fieldName, sep, data');
    assert Steps(sep, data, ks) == Steps(sep, data', ks);
  }

  /** Some key contributes a cell, so the grouping has a row. */
  lemma ContributedRows(fieldName: string, sep: string, data: map<string, Value>) returns (idx: int)
    requires |sep| > 0 && FormGroups(fieldName, sep, data).Ok?
    requires exists k, idx, sub :: WritesCell(fieldName, sep, data, k, idx, sub)
    ensures idx in FormGroups(fieldName, sep, data).value.rows
    ensures FormGroups(fieldName, sep, data).value.rows != map[]
  {
    FormGroupsKeys(fieldName, sep, data);
    var k, sub;
    k, idx, sub :| WritesCell(fieldName, sep, data, k, idx, sub);
  }

  /** No key contributes a cell, so the grouping has no row. */
  lemma NoContributedRows(fieldName: string, sep: string, data: map<string, Value>)
    requires |sep| > 0 && FormGroups(fieldName, sep, data).Ok?
    requires forall k, idx, sub :: !WritesCell(fieldName, sep, data, k, idx, sub)
    ensures FormGroups(fieldName, sep, data).value.rows == map[]
  {
    FormGroupsKeys(fieldName, sep, data);
    assert forall idx :: idx !in FormGroups(fieldName, sep, data).value.rows;
  }

  /** With the form yielding rows, collecting ignores the stored slot. */
  lemma CollectedIgnoresStored(fieldName: string, sep: string, data: map<string, Value>, parse: string -> Option<Value>, stored: Value)
    requires |sep| > 0
    requires exists k, idx, sub :: WritesCell(fieldName, sep, data, k, idx, sub)
    ensures Collected(fieldName, sep, data[fieldName := stored], parse) == Collected(fieldName, sep, data, parse)
  {
    FieldNameDoesNotMatch(fieldName, sep);
    FormGroupsFrame(fieldName, sep, data, data[fieldName := stored]);
    if FormGroups(fieldName, sep, data).Ok? {
      var idx := ContributedRows(fieldName, sep, data);
    }
  }

  /** With the form yielding rows, collecting gives those rows in
      ascending index order. */
  lemma {:induction false} CollectedFromForm(fieldName: string, sep: string, data: map<string, Value>, parse: string -> Option<Value>)
    requires |sep| > 0
    requires exists k, idx, sub :: WritesCell(fieldName, sep, data, k, idx, sub)
    ensures FormGroups(fieldName, sep, data).Ok? ==>
            && (forall idx :: idx in FormGroups(fieldName, sep, data).value.order <==> idx in FormGroups(fieldName, sep, data).value.rows)
            && RowsInIndexOrder(FormGroups(fieldName, sep, data).value) != []
            && Collected(fieldName, sep, data, parse) == Ok(ListV(RowsInIndexOrder(FormGroups(fieldName, sep, data).value)))
  {
    if FormGroups(fieldName, sep, data).Ok? {
      var g := FormGroups(fieldName, sep, data).value;
      var idx := ContributedRows(fieldName, sep, data);
      GroupsWellFormed(fieldName, sep, data);
      RowsNonEmpty(g, idx);
      assert g.rows != map[];
      assert Collected(fieldName, sep, data, parse) == Ok(ListV(RowsInIndexOrder(g)));
    }
  }

  /** A non-empty list of rows passes padding and filtering unchanged when
      blank rows are kept, or when none of its rows is blank. */
  lemma FinishKeepsRows(rows: seq<Value>, subfields: seq<Descriptor>, fieldBlanks: int, includeEmpty: bool)
    requires rows != []
    requires !includeEmpty ==> forall j :: 0 <= j < |rows| ==> Keeps(rows[j])
    ensures Finish(Ok(ListV(rows)), subfields, fieldBlanks, includeEmpty) == Ok(ListV(rows))
  {
    if !includeEmpty {
      AllKept(rows);
    }
  }

  /** Rows rebuilt from the form take precedence: replacing the stored
      slot changes nothing. */
  lemma SubmittedRowsWin(fieldName: string, subfields: seq<Descriptor>, data: map<string, Value>, sep: string,
                         parse: string -> Option<Value>, fieldBlanks: int, includeEmpty: bool, stored: Value)
    requires |sep| > 0
    requires exists k, idx, sub :: WritesCell(fieldName, sep, data, k, idx, sub)
    ensures ResolveRepeating(fieldName, subfields, data[fieldName := stored], sep, parse, fieldBlanks, includeEmpty)
         == ResolveRepeating(fieldName, subfields, data, sep, parse, fieldBlanks, includeEmpty)
  {
    CollectedIgnoresStored(fieldName, sep, data, parse, stored);
  }

  /** With the form yielding rows, the result is exactly the grouped rows
      in ascending index order, whether or not blank rows are kept: no
      submitted row is blank. */
  lemma SubmittedRowsResult(fieldName: string, subfields: seq<Descriptor>, data: map<string, Value>, sep: string,
                            parse: string -> Option<Value>, fieldBlanks: int, includeEmpty: bool)
    requires |sep| > 0
    requires exists k, idx, sub :: WritesCell(fieldName, sep, data, k, idx, sub)
    ensures FormGroups(fieldName, sep, data).Ok? ==>
            && (forall idx :: idx in FormGroups(fieldName, sep, data).value.order <==> idx in FormGroups(fieldName, sep, data).value.rows)
            && ResolveRepeating(fieldName, subfields, data, sep, parse, fieldBlanks, includeEmpty)
               == Ok(ListV(RowsInIndexOrder(FormGroups(fieldName, sep, data).value)))
  {
    CollectedFromForm(fieldName, sep, data, parse);
    if FormGroups(fieldName, sep, data).Ok? {
      var g := FormGroups(fieldName, sep, data).value;
      var rows := RowsInIndexOrder(g);
      if !includeEmpty {
        FormGroupsRowsNotBlank(fieldName, sep, data);
        RowsKept(g);
      }
      FinishKeepsRows(rows, subfields, fieldBlanks, includeEmpty);
    }
  }

  /** With no form rows, the resolver pads and filters the stored
      fallback. */
  lemma StoredFallbackUsed(fieldName: string, subfields: seq<Descriptor>, data: map<string, Value>, sep: string,
                           parse: string -> Option<Value>, fieldBlanks: int, includeEmpty: bool)
    requires |sep| > 0
    requires forall k, idx, sub :: !WritesCell(fieldName, sep, data, k, idx, sub)
    requires forall k :: !BadIndex(fieldName, sep, data, k)
    ensures Collected(fieldName, sep, data, parse) == Ok(StoredRows(Get(data, fieldName), parse))
    ensures ResolveRepeating(fieldName, subfields, data, sep, parse, fieldBlanks, includeEmpty)
         == Finish(Ok(StoredRows(Get(data, fieldName), parse)), subfields, fieldBlanks, includeEmpty)
  {
    FormGroupsRaises(fieldName, sep, data);
    NoContributedRows(fieldName, sep, data);
  }

  /** No form rows, no bad index, and nothing usable stored (the slot is
      absent or falsy, or its JSON text decodes to a falsy value other than
      `{}`, such as `[]`, `null` or `0`; a decoded `{}` is wrapped into the
      truthy `[{}]` instead): `max(field_blanks, 1)` blank rows (KeyError
      when a descriptor has no `field_name`), all of which
      `include_empty=False` strips again. */
  lemma BlankRowsForEmptyForm(fieldName: string, subfields: seq<Descriptor>, data: map<string, Value>, sep: string,
                              parse: string -> Option<Value>, fieldBlanks: int)
    requires |sep| > 0
    requires forall k, idx, sub :: !WritesCell(fieldName, sep, data, k, idx, sub)
    requires forall k :: !BadIndex(fieldName, sep, data, k)
    requires !Truthy(StoredRows(Get(data, fieldName), parse))
    ensures ResolveRepeating(fieldName, subfields, data, sep, parse, fieldBlanks, true)
      == match BlankRows(subfields, fieldBlanks)
         case Ok(rows) => Ok(ListV(rows))
         case Raised(e) => Raised(e)
    ensures BlankRows(subfields, fieldBlanks).Ok? ==>
      ResolveRepeating(fieldName, subfields, data, sep, parse, fieldBlanks, false) == Ok(ListV([]))
  {
    FormGroupsRaises(fieldName, sep, data);
    NoContributedRows(fieldName, sep, data);
    var blanks := BlankRows(subfields, fieldBlanks);
    if blanks.Ok? {
      var rows := blanks.value;
      FilterRowsKeeps(rows);
      NoneKept(rows);
    }
  }

  /** Legacy stored shape: with no form rows and no bad index, JSON text
      that decodes to an object becomes a one-row list when blank rows are
      kept. */
  lemma {:induction false} StoredObjectWrapped(fieldName: string, subfields: seq<Descriptor>, data: map<string, Value>, sep: string,
                            parse: string -> Option<Value>, fieldBlanks: int, m: map<string, Value>)
    requires |sep| > 0
    requires forall k, idx, sub :: !WritesCell(fieldName, sep, data, k, idx, sub)
    requires forall k :: !BadIndex(fieldName, sep, data, k)
    requires fieldName in data && data[fieldName].StrV? && data[fieldName].s != ""
    requires parse(data[fieldName].s) == Some(DictV(m))
    ensures ResolveRepeating(fieldName, subfields, data, sep, parse, fieldBlanks, true) == Ok(ListV([DictV(m)]))
  {
    StoredFallbackUsed(fieldName, subfields, data, sep, parse, fieldBlanks, true);
    assert StoredRows(Get(data, fieldName), parse) == ListV([DictV(m)]);
  }

  /** A stored value that is already a dict is not wrapped: `json.loads`
      rejects it and the result is as if nothing were stored. */
  lemma StoredDictIgnored(fieldName: string, subfields: seq<Descriptor>, data: map<string, Value>, sep: string,
                          parse: string -> Option<Value>, fieldBlanks: int, includeEmpty: bool)
    requires |sep| > 0
    requires fieldName in data && data[fieldName].DictV?
    ensures ResolveRepeating(fieldName, subfields, data, sep, parse, fieldBlanks, includeEmpty)
         == ResolveRepeating(fieldName, subfields, data - {fieldName}, sep, parse, fieldBlanks, includeEmpty)
  {
    FieldNameDoesNotMatch(fieldName, sep);
    FormGroupsFrame(fieldName, sep, data, data - {fieldName});
    FormGroupsRaises(fieldName, sep, data);
    FormGroupsRaises(fieldName, sep, data - {fieldName});
  }

  /** No form rows, no bad index and a truthy stored list: the list is the
      result as it is when blank rows are kept. Otherwise the result is its non-blank
      rows when every item is a dict, and AttributeError (from `.values()`
      on an item) when some item is not. */
  lemma {:induction false} StoredListUsed(fieldName: string, subfields: seq<Descriptor>, data: map<string, Value>, sep: string,
                       parse: string -> Option<Value>, fieldBlanks: int, xs: seq<Value>)
    requires |sep| > 0
    requires forall k, idx, sub :: !WritesCell(fieldName, sep, data, k, idx, sub)
    requires forall k :: !BadIndex(fieldName, sep, data, k)
    requires fieldName in data && data[fieldName] == ListV(xs) && xs != []
    ensures ResolveRepeating(fieldName, subfields, data, sep, parse, fieldBlanks, true) == Ok(ListV(xs))
    ensures (forall i :: 0 <= i < |xs| ==> xs[i].DictV?) ==>
      ResolveRepeating(fieldName, subfields, data, sep, parse, fieldBlanks, false) == Ok(ListV(Kept(xs)))
    ensures (exists i :: 0 <= i < |xs| && !xs[i].DictV?) ==>
      ResolveRepeating(fieldName, subfields, data, sep, parse, fieldBlanks, false) == Raised(AttributeError)
  {
    StoredFallbackUsed(fieldName, subfields, data, sep, parse, fieldBlanks, true);
    StoredFallbackUsed(fieldName, subfields, data, sep, parse, fieldBlanks, false);
    var found := ListV(xs);
    assert StoredRows(Get(data, fieldName), parse) == found;
    assert Padded(found, subfields, fieldBlanks) == Ok(found);
    assert ResolveRepeating(fieldName, subfields, data, sep, parse, fieldBlanks, false) == RemoveEmpty(found);
  }
}

=== FILE: scalar.dfy ===
/** `composite_get_value_dict`: the value of a (non-repeating) composite
    field, rebuilt from the submitted form keys when there are any and read
    from the stored slot otherwise. */
module Scalar {
  import opened PyValues
  import opened Text
  import opened Keys

  /** A form key that ends up in the rebuilt dict: it belongs to the field
      and carries a truthy value. */
  predicate Contributes(fieldName: string, sep: string, data: map<string, Value>, k: string) {
    k in data && Matches(fieldName, sep, k) && Truthy(data[k])
  }

  /** One pass of the loop in `build_value_dict`. */
  function AssembleStep(sep: string, data: map<string, Value>, acc: map<string, Value>, k: string): map<string, Value>
    requires |sep| > 0 && k in data
  {
    if !Truthy(data[k]) then acc
    else
      var parts := Split(k, sep, 1);
      if |parts| < 2 then acc else acc[parts[1] := data[k]]
  }

  /** The loop of `build_value_dict` over the keys `ks`, in order. */
  function Assemble(sep: string, data: map<string, Value>, ks: seq<string>): (r: map<string, Value>)
    requires |sep| > 0
    requires forall i :: 0 <= i < |ks| ==> ks[i] in data
    ensures forall sub :: sub in r ==> Truthy(r[sub])
    decreases |ks|
  {
    if ks == [] then map[]
    else AssembleStep(sep, data, Assemble(sep, data, ks[..|ks| - 1]), ks[|ks| - 1])
  }

  /** `build_value_dict()`: the dict rebuilt from the submitted keys. Only
      truthy values are copied, so no entry of it is empty. */
  function FormValue(fieldName: string, sep: string, data: map<string, Value>): (r: map<string, Value>)
    requires |sep| > 0
    ensures forall sub :: sub in r ==> Truthy(r[sub])
  {
    Assemble(sep, data, MatchingKeys(fieldName, sep, data))
  }

  /** One pass over a matching key files its value under the text after
      the key's first separator, if the value is truthy. */
  lemma AssembleStepOfMatching(fieldName: string, sep: string, data: map<string, Value>, acc: map<string, Value>, k: string)
    requires |sep| > 0 && k in data && Matches(fieldName, sep, k)
    ensures AssembleStep(sep, data, acc, k)
      == if Truthy(data[k]) then acc[AfterFirstSep(fieldName, sep, k) := data[k]] else acc
  {
    SplitOnceOfMatching(fieldName, sep, k);
  }

  lemma {:induction false} AssembleCovers(fieldName: string, sep: string, data: map<string, Value>, ks: seq<string>)
    requires |sep| > 0
    requires forall i :: 0 <= i < |ks| ==> ks[i] in data && Matches(fieldName, sep, ks[i])
    ensures forall i :: 0 <= i < |ks| && Truthy(data[ks[i]]) ==>
      AfterFirstSep(fieldName, sep, ks[i]) in Assemble(sep, data, ks)
      && Assemble(sep, data, ks)[AfterFirstSep(fieldName, sep, ks[i])] == data[ks[i]]
    decreases |ks|
  {
    if ks != [] {
      var n := |ks| - 1;
      var prefix := ks[..n];
      var last := ks[n];
      AssembleCovers(fieldName, sep, data, prefix);
      var prev := Assemble(sep, data, prefix);
      AssembleStepOfMatching(fieldName, sep, data, prev, last);
      var r := Assemble(sep, data, ks);
      forall i | 0 <= i < |ks| && Truthy(data[ks[i]])
        ensures AfterFirstSep(fieldName, sep, ks[i]) in r && r[AfterFirstSep(fieldName, sep, ks[i])] == data[ks[i]]
      {
        if i < n {
          assert prefix[i] == ks[i];
          if Truthy(data[last]) && AfterFirstSep(fieldName, sep, ks[i]) == AfterFirstSep(fieldName, sep, last) {
            AfterFirstSepInjective(fieldName, sep, ks[i], last);
          }
        }
      }
    }
  }

  lemma {:induction false} AssembleOnly(fieldName: string, sep: string, data: map<string, Value>, ks: seq<string>)
    requires |sep| > 0
    requires forall i :: 0 <= i < |ks| ==> ks[i] in data && Matches(fieldName, sep, ks[i])
    ensures forall sub :: sub in Assemble(sep, data, ks) ==>
        exists i :: 0 <= i < |ks| && Truthy(data[ks[i]]) && AfterFirstSep(fieldName, sep, ks[i]) == sub
    decreases |ks|
  {
    if ks != [] {
      var n := |ks| - 1;
      var prefix := ks[..n];
      var last := ks[n];
      AssembleOnly(fieldName, sep, data, prefix);
      var prev := Assemble(sep, data, prefix);
      AssembleStepOfMatching(fieldName, sep, data, prev, last);
      var r := Assemble(sep, data, ks);
      forall sub | sub in r
        ensures exists i :: 0 <= i < |ks| && Truthy(data[ks[i]]) && AfterFirstSep(fieldName, sep, ks[i]) == sub
      {
        if sub in prev {
          var i :| 0 <= i < n && Truthy(data[prefix[i]]) && AfterFirstSep(fieldName, sep, prefix[i]) == sub;
          assert ks[i] == prefix[i];
        } else {
          assert Truthy(data[ks[n]]) && AfterFirstSep(fieldName, sep, ks[n]) == sub;
        }
      }
    }
  }

  /** The rebuilt dict holds exactly the submitted subfields: every key of
      the field with a truthy value, under the text after the key's first
      separator, and nothing else. */
  lemma FormValueContents(fieldName: string, sep: string, data: map<string, Value>)
    requires |sep| > 0
    ensures forall k :: Contributes(fieldName, sep, data, k) ==>
      AfterFirstSep(fieldName, sep, k) in FormValue(fieldName, sep, data)
      && FormValue(fieldName, sep, data)[AfterFirstSep(fieldName, sep, k)] == data[k]
    ensures forall sub :: sub in FormValue(fieldName, sep, data) ==>
      exists k :: Contributes(fieldName, sep, data, k) && AfterFirstSep(fieldName, sep, k) == sub
  {
    var ks := MatchingKeys(fieldName, sep, data);
    var r := FormValue(fieldName, sep, data);
    AssembleCovers(fieldName, sep, data, ks);
    AssembleOnly(fieldName, sep, data, ks);
    forall k | Contributes(fieldName, sep, data, k)
      ensures AfterFirstSep(fieldName, sep, k) in r && r[AfterFirstSep(fieldName, sep, k)] == data[k]
    {
      assert k in ks;
      var i :| 0 <= i < |ks| && ks[i] == k;
    }
    forall sub | sub in r
      ensures exists k :: Contributes(fieldName, sep, data, k) && AfterFirstSep(fieldName, sep, k) == sub
    {
      var i :| 0 <= i < |ks| && Truthy(data[ks[i]]) && AfterFirstSep(fieldName, sep, ks[i]) == sub;
      assert Contributes(fieldName, sep, data, ks[i]);
    }
  }

  /** `composite_get_value_dict(fieldName, data)`. */
  function ResolveScalar(fieldName: string, sep: string, data: map<string, Value>, parse: string -> Option<Value>): (r: Value)
    requires |sep| > 0
    // submitted keys win, and determine the whole dict
    ensures (exists k :: Contributes(fieldName, sep, data, k)) ==>
      && r.DictV?
      && (forall k :: Contributes(fieldName, sep, data, k) ==>
            AfterFirstSep(fieldName, sep, k) in r.entries && r.entries[AfterFirstSep(fieldName, sep, k)] == data[k])
      && (forall sub :: sub in r.entries ==>
            exists k :: Contributes(fieldName, sep, data, k) && AfterFirstSep(fieldName, sep, k) == sub)
    // otherwise the stored slot decides
    ensures (forall k :: !Contributes(fieldName, sep, data, k)) ==>
      if fieldName !in data || !Truthy(data[fieldName]) then r == DictV(map[])
      else if data[fieldName].DictV? then r == data[fieldName]
      else if data[fieldName].StrV? && parse(data[fieldName].s).Some? then r == parse(data[fieldName].s).value
      else r == DictV(map[])
  {
    FormValueContents(fieldName, sep, data);
    var form := FormValue(fieldName, sep, data);
    if form != map[] then DictV(form)
    else
      var stored := Get(data, fieldName);
      if stored.None? || !Truthy(stored.value) then DictV(map[])
      else if stored.value.DictV? then stored.value
      else LoadsOr(parse, stored.value, DictV(map[]))
  }

  /** The loop reads `data` only at the keys it visits. */
  lemma {:induction false} AssembleFrame(sep: string, data: map<string, Value>, data': map<string, Value>, ks: seq<string>)
    requires |sep| > 0
    requires forall i :: 0 <= i < |ks| ==> ks[i] in data && ks[i] in data' && data[ks[i]] == data'[ks[i]]
    ensures Assemble(sep, data, ks) == Assemble(sep, data', ks)
    decreases |ks|
  {
    if ks != [] {
      AssembleFrame(sep, data, data', ks[..|ks| - 1]);
    }
  }

  /** While the form carries any subfield, the stored slot is ignored:
      replacing it changes nothing. */
  lemma SubmittedValueWins(fieldName: string, sep: string, data: map<string, Value>, parse: string -> Option<Value>, stored: Value)
    requires |sep| > 0
    requires exists k :: Contributes(fieldName, sep, data, k)
    ensures ResolveScalar(fieldName, sep, data[fieldName := stored], parse) == ResolveScalar(fieldName, sep, data, parse)
  {
    var data' := data[fieldName := stored];
    FieldNameDoesNotMatch(fieldName, sep);
    assert (set k | k in data && Matches(fieldName, sep, k)) == (set k | k in data' && Matches(fieldName, sep, k));
    var ks := MatchingKeys(fieldName, sep, data);
    assert ks == MatchingKeys(fieldName, sep, data');
    AssembleFrame(sep, data, data', ks);
    FormValueContents(fieldName, sep, data);
  }

  /** Resolving, storing the result as JSON text and resolving again from
      that text gives the same value, whenever `dump` is a JSON encoder that
      `parse` inverts (JSON text is never empty). */
  lemma ResolveScalarRoundTrip(fieldName: string, sep: string, data: map<string, Value>,
                               parse: string -> Option<Value>, dump: Value -> string)
    requires |sep| > 0
    requires forall v :: parse(dump(v)) == Some(v)
    requires forall v :: dump(v) != ""
    ensures var r := ResolveScalar(fieldName, sep, data, parse);
      ResolveScalar(fieldName, sep, map[fieldName := StrV(dump(r))], parse) == r
  {
    var r := ResolveScalar(fieldName, sep, data, parse);
    var stored := map[fieldName := StrV(dump(r))];
    FieldNameDoesNotMatch(fieldName, sep);
    forall k | k in stored
      ensures !Contributes(fieldName, sep, stored, k)
    {
      assert k == fieldName;
    }
    assert stored[fieldName] == StrV(dump(r)) && Truthy(stored[fieldName]);
    assert parse(stored[fieldName].s) == Some(r);
  }
}

=== FILE: text.dfy ===
/** The `str` operations the helpers rely on: prefix tests, `str.find`,
    `str.split(sep, maxsplit)` and `sep.join(parts)`. */
module Text {
  import opened PyValues

  /** `s.startswith(p)`. */
  predicate StartsWith(s: string, p: string) {
    |p| <= |s| && s[..|p|] == p
  }

  /** `sep` occurs in `s` starting at position `i`. */
  predicate OccursAt(s: string, sep: string, i: nat) {
    i + |sep| <= |s| && s[i..i + |sep|] == sep
  }

  /** `sep in s`. */
  predicate Contains(s: string, sep: string) {
    exists i: nat :: i <= |s| && OccursAt(s, sep, i)
  }

  /** The first occurrence of `sep` in `s` at or after `from`. */
  function FindFrom(s: string, sep: string, from: nat): (r: Option<nat>)
    decreases |s| - from
  {
    if from + |sep| > |s| then None
    else if s[from..from + |sep|] == sep then Some(from)
    else FindFrom(s, sep, from + 1)
  }

  /** What `FindFrom` finds: an occurrence at or after `from` with none
      between `from` and it, or `None` when there is no occurrence there. */
  lemma {:induction false} FindFromSpec(s: string, sep: string, from: nat)
    ensures FindFrom(s, sep, from).Some? ==> from <= FindFrom(s, sep, from).value && OccursAt(s, sep, FindFrom(s, sep, from).value)
    ensures FindFrom(s, sep, from).Some? ==> forall j: nat :: from <= j < FindFrom(s, sep, from).value ==> !OccursAt(s, sep, j)
    ensures FindFrom(s, sep, from).None? ==> forall j: nat :: from <= j ==> !OccursAt(s, sep, j)
    decreases |s| - from
  {
    if from + |sep| <= |s| && s[from..from + |sep|] != sep {
      FindFromSpec(s, sep, from + 1);
    }
  }

  /** `s.find(sep)`, with `None` for Python's -1: the leftmost occurrence. */
  function FindFirst(s: string, sep: string): (r: Option<nat>)
    ensures r.Some? ==> OccursAt(s, sep, r.value)
    ensures r.Some? ==> forall j: nat :: j < r.value ==> !OccursAt(s, sep, j)
    ensures r.None? <==> !Contains(s, sep)
  {
    FindFromSpec(s, sep, 0);
    FindFrom(s, sep, 0)
  }

  /** The leftmost occurrence of `sep` in a string that starts with `p` is
      the leftmost occurrence in `p`, whenever `p` contains `sep` at all. */
  lemma FindFirstInPrefix(s: string, p: string, sep: string)
    requires StartsWith(s, p) && FindFirst(p, sep).Some?
    ensures FindFirst(s, sep) == FindFirst(p, sep)
  {
    var i := FindFirst(p, sep).value;
    assert OccursAt(p, sep, i);
    PrefixSlice(s, p, i, i + |sep|);
    assert OccursAt(s, sep, i);
    forall j: nat | j < i
      ensures !OccursAt(s, sep, j)
    {
      PrefixSlice(s, p, j, j + |sep|);
      assert !OccursAt(p, sep, j);
    }
  }

  /** Inside the prefix `p`, a string that starts with `p` reads as `p`. */
  lemma PrefixSlice(s: string, p: string, a: nat, b: nat)
    requires StartsWith(s, p) && a <= b <= |p|
    ensures s[a..b] == p[a..b]
  {
    forall j | 0 <= j < b - a
      ensures s[a..b][j] == p[a..b][j]
    {
      assert s[a + j] == s[..|p|][a + j];
    }
  }

  /** The total length of the parts. */
  function TotalLength(parts: seq<string>): nat
    decreases |parts|
  {
    if parts == [] then 0 else |parts[0]| + TotalLength(parts[1..])
  }

  /** `sep.join(parts)`. */
  function Join(parts: seq<string>, sep: string): string
    decreases |parts|
  {
    if |parts| == 0 then ""
    else if |parts| == 1 then parts[0]
    else parts[0] + sep + Join(parts[1..], sep)
  }

  /** The joined text holds every part and one `sep` between each two
      neighbours, and nothing else. */
  lemma {:induction false} JoinLength(parts: seq<string>, sep: string)
    ensures |Join(parts, sep)| == TotalLength(parts) + (if parts == [] then 0 else (|parts| - 1) * |sep|)
    decreases |parts|
  {
    if |parts| > 1 {
      JoinLength(parts[1..], sep);
      assert (|parts| - 1) * |sep| == (|parts[1..]| - 1) * |sep| + |sep|;
    }
  }

  /** Joining a first part before a non-empty rest puts `sep` between
      them. */
  lemma JoinCons(head: string, rest: seq<string>, sep: string)
    requires rest != []
    ensures Join([head] + rest, sep) == head + sep + Join(rest, sep)
  {
    assert ([head] + rest)[1..] == rest;
  }

  /** `s.split(sep, maxsplit)` for a non-empty `sep`; a negative `maxsplit`
      splits at every occurrence. */
  function Split(s: string, sep: string, maxsplit: int): (r: seq<string>)
    requires |sep| > 0
    ensures 1 <= |r|
    ensures maxsplit >= 0 ==> |r| <= maxsplit + 1
    decreases |s|
  {
    if maxsplit == 0 then [s]
    else match FindFirst(s, sep)
      case None => [s]
      case Some(i) => [s[..i]] + Split(s[i + |sep|..], sep, if maxsplit > 0 then maxsplit - 1 else maxsplit)
  }

  /** One cut of `split`: `s` is the text before its first `sep`, the
      `sep`, and the rest, and `split` continues on the rest with one cut
      fewer. */
  lemma SplitAt(s: string, sep: string, maxsplit: int, i: nat)
    requires |sep| > 0 && maxsplit != 0 && FindFirst(s, sep) == Some(i)
    ensures i + |sep| <= |s| && s == s[..i] + sep + s[i + |sep|..]
    ensures Split(s, sep, maxsplit) == [s[..i]] + Split(s[i + |sep|..], sep, if maxsplit > 0 then maxsplit - 1 else maxsplit)
  {
    assert OccursAt(s, sep, i);
  }

  /** The piece before the first `sep` splits off cleanly: no occurrence of
      `sep` starts inside it, not even one straddling into the `sep` that
      follows it. */
  lemma CleanCut(s: string, sep: string, i: nat)
    requires |sep| > 0 && FindFirst(s, sep) == Some(i)
    ensures SplitsCleanly(s[..i], sep)
  {
    var p := s[..i] + sep;
    assert OccursAt(s, sep, i);
    assert p == s[..i + |sep|];
    assert OccursAt(p, sep, i);
    FindFirstInPrefix(s, p, sep);
  }

  /** Join inverts split: joining the pieces with `sep` gives back the
      string, whatever the split limit. */
  lemma {:induction false} JoinSplit(s: string, sep: string, maxsplit: int)
    requires |sep| > 0
    ensures Join(Split(s, sep, maxsplit), sep) == s
    decreases |s|
  {
    if maxsplit != 0 && FindFirst(s, sep).Some? {
      var i := FindFirst(s, sep).value;
      var tail := s[i + |sep|..];
      var rest := Split(tail, sep, if maxsplit > 0 then maxsplit - 1 else maxsplit);
      SplitAt(s, sep, maxsplit, i);
      JoinSplit(tail, sep, if maxsplit > 0 then maxsplit - 1 else maxsplit);
      JoinCons(s[..i], rest, sep);
    }
  }

  /** Cutting `s` before its first occurrence of `sep` leaves a piece
      without `sep`. */
  lemma NoEarlierOccurrence(s: string, sep: string, i: nat)
    requires |sep| > 0 && FindFirst(s, sep) == Some(i)
    ensures !Contains(s[..i], sep)
  {
    forall j: nat | OccursAt(s[..i], sep, j)
      ensures false
    {
      assert s[j..j + |sep|] == s[..i][j..j + |sep|];
      assert OccursAt(s, sep, j);
    }
  }

  /** Every piece but the last is free of `sep`, and so is the last unless
      `maxsplit` ran out: `split` cuts at each leftmost occurrence. */
  lemma {:induction false} SplitPieces(s: string, sep: string, maxsplit: int)
    requires |sep| > 0
    ensures forall i :: 0 <= i < |Split(s, sep, maxsplit)| - 1 ==> !Contains(Split(s, sep, maxsplit)[i], sep)
    ensures (maxsplit < 0 || |Split(s, sep, maxsplit)| <= maxsplit) ==>
      !Contains(Split(s, sep, maxsplit)[|Split(s, sep, maxsplit)| - 1], sep)
    decreases |s|
  {
    if maxsplit != 0 && FindFirst(s, sep).Some? {
      var i := FindFirst(s, sep).value;
      var m := if maxsplit > 0 then maxsplit - 1 else maxsplit;
      NoEarlierOccurrence(s, sep, i);
      SplitPieces(s[i + |sep|..], sep, m);
      var rest := Split(s[i + |sep|..], sep, m);
      assert Split(s, sep, maxsplit) == [s[..i]] + rest;
      assert forall j :: 1 <= j < |rest| + 1 ==> ([s[..i]] + rest)[j] == rest[j - 1];
    }
  }

  /** A piece that will be followed by `sep` in a joined string splits off
      cleanly: the first `sep` of `x + sep` is the appended one. */
  predicate SplitsCleanly(x: string, sep: string) {
    FindFirst(x + sep, sep) == Some(|x|)
  }

  /** Piece `j` of a split, when it is not the last, splits off cleanly. */
  lemma {:induction false} PieceCleanAt(s: string, sep: string, maxsplit: int, j: nat)
    requires |sep| > 0 && j < |Split(s, sep, maxsplit)| - 1
    ensures SplitsCleanly(Split(s, sep, maxsplit)[j], sep)
    decreases |s|
  {
    assert maxsplit != 0 && FindFirst(s, sep).Some?;
    var i := FindFirst(s, sep).value;
    var m := if maxsplit > 0 then maxsplit - 1 else maxsplit;
    SplitAt(s, sep, maxsplit, i);
    if j == 0 {
      CleanCut(s, sep, i);
    } else {
      PieceCleanAt(s[i + |sep|..], sep, m, j - 1);
    }
  }

  /** Every piece but the last splits off cleanly: no occurrence of `sep`
      starts inside it, not even one overlapping the cut. So `split` cuts
      at the leftmost occurrence even when `sep` overlaps itself: `"aaa"`
      split at `"aa"` gives `""` and `"a"`, never `"a"` and `""`. */
  lemma SplitCutsCleanly(s: string, sep: string, maxsplit: int)
    requires |sep| > 0
    ensures forall j :: 0 <= j < |Split(s, sep, maxsplit)| - 1 ==> SplitsCleanly(Split(s, sep, maxsplit)[j], sep)
  {
    forall j | 0 <= j < |Split(s, sep, maxsplit)| - 1
      ensures SplitsCleanly(Split(s, sep, maxsplit)[j], sep)
    {
      PieceCleanAt(s, sep, maxsplit, j);
    }
  }

  /** Splitting a joined string at every separator gives back the parts, as
      long as no part introduces a separator of its own. */
  lemma {:induction false} SplitJoin(parts: seq<string>, sep: string)
    requires |sep| > 0 && |parts| >= 1
    requires forall i :: 0 <= i < |parts| - 1 ==> SplitsCleanly(parts[i], sep)
    requires !Contains(parts[|parts| - 1], sep)
    ensures Split(Join(parts, sep), sep, -1) == parts
    decreases |parts|
  {
    if |parts| > 1 {
      var s := Join(parts, sep);
      var rest := Join(parts[1..], sep);
      assert s == (parts[0] + sep) + rest;
      FindFirstInPrefix(s, parts[0] + sep, sep);
      assert FindFirst(s, sep) == Some(|parts[0]|);
      assert s[..|parts[0]|] == parts[0];
      assert s[|parts[0]| + |sep|..] == rest;
      SplitJoin(parts[1..], sep);
      assert Split(s, sep, -1) == [parts[0]] + Split(rest, sep, -1);
      assert parts == [parts[0]] + parts[1..];
    } else {
      assert FindFirst(parts[0], sep).None?;
    }
  }
}

=== FILE: values.dfy ===
/** Python values as the composite helpers see them: form values, stored
    field values and the results of JSON decoding. */
module PyValues {

  /** An optional value: what `dict.get` finds, and what a JSON decoder
      returns when it does not raise. */
  datatype Option<+T> = None | Some(value: T) {

    /** `d.get(k, default)` once the lookup is done. */
    function ValueOr(default: T): T {
      match this
      case Some(v) => v
      case None => default
    }
  }

  /** The Python exceptions that can escape the helpers. */
  datatype PyError = ValueError | KeyError | TypeError | AttributeError

  /** Either a returned value or a raised exception. */
  datatype Result<+T> = Ok(value: T) | Raised(error: PyError)

  /** A Python value: `None`, a bool, an int, a str, a list or a dict with
      string keys. Floats, bytes and non-string dict keys are not modelled. */
  datatype Value =
    | NoneV
    | BoolV(b: bool)
    | IntV(i: int)
    | StrV(s: string)
    | ListV(items: seq<Value>)
    | DictV(entries: map<string, Value>)

  /** Python truthiness: `None`, `False`, `0`, `''`, `[]` and `{}` are falsy. */
  predicate Truthy(v: Value) {
    match v
    case NoneV => false
    case BoolV(b) => b
    case IntV(i) => i != 0
    case StrV(s) => s != ""
    case ListV(xs) => xs != []
    case DictV(m) => m != map[]
  }

  /** `d.get(k)`: the value stored under `k`, if any. */
  function Get(d: map<string, Value>, k: string): (r: Option<Value>)
    ensures r.Some? <==> k in d
    ensures r.Some? ==> r.value == d[k]
  {
    if k in d then Some(d[k]) else None
  }

  /** `json.loads(v)` guarded as in `_json2dict_or_empty` and
      `_json2list_or_empty`: a text value is decoded with `parse`; a decoding
      failure, or a value that is not text (for which `json.loads` raises
      TypeError), yields `default` instead of an exception. */
  function LoadsOr(parse: string -> Option<Value>, v: Value, default: Value): (r: Value)
    ensures v.StrV? && parse(v.s).Some? ==> r == parse(v.s).value
    ensures !v.StrV? ==> r == default
    ensures v.StrV? && parse(v.s).None? ==> r == default
  {
    match v
    case StrV(s) => parse(s).ValueOr(default)
    case _ => default
  }
}
